=== FILE: README.md ===
# oc-blackhole, modelled in Dafny

`oc blackhole` is an `oc` plugin that makes one OpenShift/Kubernetes cluster
(the *blocked* cluster) unreachable from one or more *target* clusters. It
does this by installing kernel blackhole routes on every node of every target.
This project models the decision logic of the plugin as pure Dafny functions
and proves what it computes:

- **Discovery** (`cmd/cluster.go`). Finds the blocked cluster's addresses: the
  first `ExternalIP` of each node, plus the API server's resolved addresses.
  These are merged into a sorted listing without duplicates. Discovery also
  finds the target clusters' node names, and fixes the order of the
  inspection steps.
- **Routes** (`cmd/iproute.go`). Builds the `ip route replace blackhole`
  script and the filtered `ip route del blackhole` script, and strictly
  parses the `ip -4/-6 route show type blackhole` output. A node's blackhole
  table is modelled as a set of addresses, with `replace` (insert,
  idempotent) and `del` (remove; fails on an absent route). Against that
  table the model proves what the scripts do.
- **Orchestration** (`cmd/command.go`). Covers:
  - context validation;
  - the per-node fan-out and `targetNodeCount`;
  - `firstError`;
  - the block, unblock and status phases;
  - the classification of each node as blocked, partly blocked or
    unblocked;
  - the per-target `Valid` flag of `collectResults`.
- **Legacy** (`cmd/nodes.go`). The older generation of the same helpers,
  including its lenient route reader. Its helpers are proved to agree with
  the current ones. The two route readers are proved to disagree on
  IPv6-shaped lines and on blank lines.
- **ProgressBar** (`cmd/progress.go`). The progress counter as a state
  machine, the fixed-width indeterminate line, and the clearing line.
- **Show** (`cmd/show.go`). `sortedKeys`.
- **Supporting modules.**
  - Types holds the error causes, `Result` and `Option`.
  - Ordering holds Go's string order and the sorted, de-duplicated listing of
    `sets.List`.
  - Text holds the parts of Go's `strings.Fields`, `bufio.Scanner`
    line splitting, `strings.Trim` and `strings.SplitN` that the plugin uses.

External effects are inputs:

- Running a script on a node (`oc debug`) is a function from script text to
  an output or an error.
- A Kubernetes node listing is a `Result` value.
- The kubeconfig holds its contexts by context name and its clusters by
  cluster name. Each context names its cluster, and that name need not be
  the context's own.
- `url.Parse` (giving `URL.Host`, port included) and `net.LookupIP` are
  function parameters. `URL.Hostname` is written out.
- A command's setup is an input: the blocked context, the targets, and
  what their node listings and the API-server lookup return. The blocked
  cluster is inspected as the code does it, with the API-server lookup as
  written (see Findings). The inspection goroutines send one outcome per
  cluster, and the order in which they arrive is a permutation of those
  outcomes. The phases work on the clusters that this inspection fills in.
- Goroutines are replaced by an *arrival order*: a sequence that must be a
  permutation of the phase's tasks. Every result about a phase holds for all
  arrival orders.

Points where the code's behaviour is easy to misread:

- **`Valid` flag.** `collectResults` compares a node's status only with that
  same node's earlier status (cmd/command.go:265-269). A target with one
  blocked node and one unblocked node therefore stays valid
  (`Orchestration.MixedTargetStaysValid`).
- **Ingress routes.** The code collects no ingress-route addresses, so none
  are modelled.
- **Early return.** The phases return on the first error without waiting for
  the other tasks (cmd/command.go:101-105, 184-192). The model returns the
  first error in arrival order.
- **`validateContexts`.** The code at cmd/command.go:288-294 names
  `targetContexts`, an identifier not declared in that function: the
  parameter is spelled `targeContexts`. The model uses the evident intent,
  which compares the size of the set of targets with the length of the
  list.

## Model

| member | source | states |
|---|---|---|
| `Orchestration.ValidateContexts` | cmd/command.go:285-298 | Duplicate targets give the duplicate error. Otherwise, the blocked context among the targets gives the overlap error. Success exactly when the targets are distinct and exclude the blocked context. The set-size test is proved equivalent to pairwise distinctness. |
| `Orchestration.DuplicateReportedFirst` | cmd/command.go:288-295 | An example of the check order: `[blocked, other, blocked]` holds both faults, and the duplicate error is the one reported. |
| `Orchestration.FirstError` | cmd/command.go:184-192 | Nil exactly when the first `count` values are all nil. Otherwise it is the first non-nil one among them. |
| `Orchestration.Tasks` | cmd/command.go:126-142 | A phase starts one (context, node) task for each node of each target, and no others. |
| `Orchestration.TargetNodeCount` | cmd/command.go:277-283 | The sum of the targets' node counts equals the number of tasks a phase starts. |
| `Orchestration.ModifyNodes` | cmd/command.go:119-144 | The phase waits for `targetNodeCount` values. For any arrival order it succeeds exactly when every node task succeeds, and an error it returns comes from some task. |
| `Orchestration.InspectClusters` | cmd/command.go:85-108 | The values received are, in any order, the outcomes of `Inspect` on the blocked cluster and on each target. The result is nil exactly when every cluster inspects successfully. Otherwise it is the error of some cluster's inspection. |
| `Orchestration.Inspected` | cmd/cluster.go:44-58 | After a successful inspection, the blocked cluster and each target are the values their `Inspect` produced, in target order. |
| `Orchestration.InspectedReady` | cmd/cluster.go:135-163 | After a successful inspection, every target keeps its context and has at least one node, and there is at least one address to block. |
| `Orchestration.BlockCluster` | cmd/command.go:110-145 | A failed inspection ends the command with the inspection's error, before any node is touched. Otherwise the command runs on the inspected clusters. It succeeds exactly when the add script of the inspected addresses succeeds on every node of every target. An error it returns is some node's. |
| `Orchestration.UnblockCluster` | cmd/command.go:147-182 | A failed inspection ends the command with the inspection's error. Otherwise it succeeds exactly when the delete procedure succeeds on every node of the inspected targets. An error it returns is some node's. |
| `Orchestration.Classify` | cmd/command.go:256-263 | Blocked iff the routes contain every address. Partly blocked iff they contain some but not all. Unblocked iff they contain none (and there is at least one address). The three cases are exclusive and exhaustive. |
| `Orchestration.ClassifyNoAddresses` | cmd/command.go:256-257 | With no addresses, every node is Blocked. |
| `Orchestration.InitialReport` | cmd/command.go:236-243 | Before any result arrives, there is one entry per target, each valid with no nodes. |
| `Orchestration.Collect` | cmd/command.go:235-275 | Fails exactly when some result carries an error, and then with the first such error and no map. On success it has one entry per target. |
| `Orchestration.CollectInvariant` | cmd/command.go:247-272 | After each prefix of results, a target is valid iff none of its nodes is partly blocked and no node changed status between its own results. Its node map holds exactly the reported nodes, each with the status of its last result. |
| `Orchestration.RecordStep` | cmd/command.go:253-271 | One loop step for the result's target keeps the meaning of `Valid` and of the node map. |
| `Orchestration.UnrelatedStep` | cmd/command.go:253 | A result for another target leaves a target's facts unchanged. |
| `Orchestration.CollectMeaning` | cmd/command.go:247-274 | The meaning of the final map, for every target. |
| `Orchestration.ValidIffNoPartlyBlocked` | cmd/command.go:258-269 | With one result per (target, node), a target is valid exactly when none of its nodes is partly blocked. |
| `Orchestration.MixedTargetStaysValid` | cmd/command.go:265-271 | A blocked node and an unblocked node in one target leave it valid, with both statuses recorded. |
| `Orchestration.SilentTargetStaysValid` | cmd/command.go:238-243 | A target that received no results stays valid with an empty node map. |
| `Orchestration.ChangedStatusInvalidates` | cmd/command.go:265-269 | A node reporting two different statuses makes its target invalid. |
| `Orchestration.QueryNode` | cmd/command.go:223-228 | The result sent for a node carries an error exactly when route parsing failed, and that error is the parser's own. Otherwise it carries the parsed routes. |
| `Orchestration.StatusOfNodes` | cmd/command.go:214-274 | For any arrival order, the node phase succeeds exactly when every node's route query parses. The map then has one entry per target. Otherwise the error is the parse error of the first failing node to arrive. |
| `Orchestration.StatusOfNodesNode` | cmd/command.go:245-271 | After a successful node phase, every node of every target is in its target's node map. Its status is the classification of its parsed routes against the blocked cluster's sorted addresses. |
| `Orchestration.StatusOfNodesTarget` | cmd/command.go:238-274 | After a successful node phase, a target's node map holds exactly the target's node names. The target is valid exactly when none of its nodes is partly blocked, because a node named twice reports the same routes both times. |
| `Orchestration.StatusPhase` | cmd/command.go:201-233 | A failed inspection returns the inspection's error. Otherwise the phase succeeds exactly when every node of the inspected targets has a route query that parses. The map then has one entry per inspected target and is the node phase's map. A node-phase error is the parse error of some inspected node. |
| `Discovery.ExternalIP` | cmd/cluster.go:93-100 | Succeeds iff some address is typed `ExternalIP`, and returns the first such address. Otherwise it fails naming the node. |
| `Discovery.ExternalAddresses` | cmd/cluster.go:76-84 | One address per node, in listing order. It fails with the error of the first node that has no external IP. |
| `Discovery.FindNodesAddresses` | cmd/cluster.go:68-91 | A listing error propagates and an empty listing is an error. Success iff every node has an external IP, with the addresses in node order. |
| `Discovery.FindNodeNames` | cmd/cluster.go:146-163 | A listing error propagates and an empty listing is an error. Otherwise the node names, in listing order. |
| `Discovery.FindAPIServerAddress` | cmd/cluster.go:102-124 | The corrected lookup. A context that names no existing cluster is an error, and so is an unparsable server URL. Otherwise the result, success or error, is what resolving the URL's host name (port dropped) returns. |
| `Discovery.APIServerAddressAsWritten` | cmd/cluster.go:102-124 | The lookup as the code writes it. The `Clusters` map is indexed with the context's name, and the resolver is asked for `URL.Host` with any port. |
| `Discovery.AsWrittenAgrees` | cmd/cluster.go:103-113 | When the context is named after its cluster and the server URL has no port, the lookup as written and the corrected lookup give the same result. |
| `Discovery.AsWrittenMissesRenamedCluster` | cmd/cluster.go:103-106 | For a context named differently from its cluster, the lookup as written reports no cluster, while the corrected lookup resolves the server. |
| `Discovery.AsWrittenResolvesPort` | cmd/cluster.go:113 | For a server URL with a port, the lookup as written resolves `host:port`, which is not a host name, while the corrected lookup resolves `host`. |
| `Discovery.HostnameDropsPort` | cmd/cluster.go:113 | `URL.Hostname` of `host:digits` is `host`. |
| `Discovery.InspectBlocked` | cmd/cluster.go:44-58 | Node addresses come first: their failure is the result. Otherwise a failing API-server lookup, done as the code does it (`APIServerAddressAsWritten`), gives that lookup's error. Success iff both steps succeed, and the cluster then holds both address lists. |
| `Discovery.InspectBlockedCorrected` | cmd/cluster.go:44-58 | The same two steps in the same order, with the corrected API-server lookup. |
| `Discovery.InspectionsAgree` | cmd/cluster.go:44-58 | Where a context is named after its cluster and the server URL has no port, the inspection as written and the corrected one give the same result. |
| `Discovery.InspectStopsAtNodeFailure` | cmd/cluster.go:47-50 | When node discovery fails, the kubeconfig and resolver play no part in the result. |
| `Discovery.InspectTarget` | cmd/cluster.go:135-144 | Succeeds iff node-name discovery does, with a non-empty node list. |
| `Discovery.AllAddresses` | cmd/cluster.go:60-66 | Strictly increasing (sorted, no duplicates), and its elements are exactly the node addresses plus the API-server addresses. |
| `Discovery.AllAddressesCanonical` | cmd/cluster.go:63-65 | The listing depends only on the union of the two address sets, not on their order or repetitions. |
| `Discovery.AllAddressesUnionExample` | cmd/cluster.go:63-65 | ["10.0.0.1"] with ["10.0.0.1", "10.0.0.2"] gives ["10.0.0.1", "10.0.0.2"]. |
| `Ordering.SortUnique` | cmd/cluster.go:65 | `sets.List` gives a strictly sorted sequence with the same elements. |
| `Ordering.SortedUnique` | cmd/cluster.go:65 | Two strictly sorted sequences with the same elements are equal. |
| `Routes.AddScriptLines` | cmd/iproute.go:19-23 | The add script has exactly one `ip route replace blackhole <a>` line per address, in input order. |
| `Routes.AddBlackholeRoutes` | cmd/iproute.go:16-31 | Succeeds exactly when running the add script succeeds. The script's output is ignored. |
| `Routes.AddScriptEffect` | cmd/iproute.go:19-25 | On a node's table, the add script yields the table plus every requested address. |
| `Routes.AddScriptIdempotent` | cmd/iproute.go:21-22 | Running the add script twice leaves the same table as running it once. |
| `Routes.Present` | cmd/iproute.go:45-49 | The requested addresses found in the queried set, and no others. |
| `Routes.PresentOne` | cmd/iproute.go:46-47 | One requested address is kept exactly when it is in the queried set. |
| `Routes.PresentAppend` | cmd/iproute.go:45-49 | The filter works address by address: it keeps the requested order and repetitions. |
| `Routes.DeleteScript` | cmd/iproute.go:44-54 | The script is empty exactly when no requested address is present. |
| `Routes.DeleteScriptLines` | cmd/iproute.go:44-49 | There is one `ip route del blackhole` line per requested address that is present, in order. No line names an absent address. |
| `Routes.DeletePlan` | cmd/iproute.go:39-54 | A query error propagates. Nothing is run exactly when no requested address is present. Otherwise the delete script is run. |
| `Routes.DeleteBlackholeRoutes` | cmd/iproute.go:33-62 | A failing query is returned before any deletion. With no requested address present, it succeeds without running a script. Otherwise the outcome is that of running the delete script built from the queried routes, including its error. |
| `Routes.DeleteScriptEffect` | cmd/iproute.go:36-49 | On the queried table, the delete script succeeds (it never deletes an absent route) and leaves the table minus the requested addresses. |
| `Routes.UnblockNode` | cmd/iproute.go:33-62 | End to end on a node holding a table: the query parses, and the plan either skips the remote call or removes exactly the requested addresses. |
| `Routes.BlockUnblockRoundTrip` | cmd/iproute.go:16-62 | Blocking and then unblocking the same addresses restores a table that held none of them. |
| `Routes.ParseRoutes` | cmd/iproute.go:82-97 | Succeeds iff every line has at least two fields with first field `blackhole`. The result is the set of second fields. The error names the first malformed line. |
| `Routes.FindBlackholeRoutes` | cmd/iproute.go:64-103 | A failed query propagates. Otherwise the output's lines are parsed. |
| `Routes.SecondFieldIsAddress` | cmd/iproute.go:85-96 | In `blackhole <a> <rest>`, the address is the second field whatever follows. |
| `Routes.ParseSingleRoute` | cmd/iproute.go:85-96 | An IPv6-shaped line `blackhole <a> dev lo metric 1024 pref medium` yields exactly `{a}`. |
| `Routes.ParseRejectsBlankLine` | cmd/iproute.go:88-94 | A blank line fails the parse. |
| `Routes.ParseRejectsOtherRoutes` | cmd/iproute.go:88-94 | A line whose first field is not `blackhole` (such as `default via 10.0.0.1`) fails the parse with that line. |
| `Routes.QueryRoundTrip` | cmd/iproute.go:79-102 | Parsing a node's listing of its table gives back the table. |
| `Text.FieldsWordSpace` | cmd/iproute.go:88 | `strings.Fields` returns a word followed by white space as a field by itself. |
| `Text.LinesJoin` | cmd/iproute.go:80-83 | The scanner returns, unchanged, the lines that were joined with newlines. |
| `Text.TrimSpaces` | cmd/nodes.go:126 | `strings.Trim(s, " ")` leaves no leading or trailing space and removes only spaces. |
| `Legacy.ValidateContext` | cmd/nodes.go:21-25 | Rejects exactly the case where the blocked context equals the target. |
| `Legacy.NodeExternalIP` | cmd/nodes.go:88-96 | The loop finds the first `ExternalIP` address and fails when there is none. It agrees with the current `externalIP`. |
| `Legacy.NodesAddresses` | cmd/nodes.go:48-67 | One address per node, in order. It fails on a node without an external IP or on an empty listing. It agrees with `findNodesAddresses`. |
| `Legacy.NodesNames` | cmd/nodes.go:69-86 | The node names, in order. It fails on an empty listing. It agrees with `findNodeNames`. |
| `Legacy.SplitOnce` | cmd/nodes.go:124 | `SplitN(s, " ", 2)` gives one part iff `s` has no space. Otherwise the parts are the text before and after the first space. |
| `Legacy.LineBlackholeIff` | cmd/nodes.go:124-126 | A line contributes iff it starts with `blackhole `. What it contributes is everything after that prefix, trimmed. |
| `Legacy.FindBlackholes` | cmd/nodes.go:98-134 | A failed run propagates. Content never causes a failure, and the result is what the route lines contribute. |
| `Legacy.SkipsOtherLines` | cmd/nodes.go:123-128 | Inserting a non-route line anywhere in the output does not change the result. |
| `Legacy.ReadersDisagreeOnIPv6` | cmd/nodes.go:124-126 | On an IPv6-shaped line, trailing space included, the older reader keeps `<a> <rest>` trimmed, while the current one keeps `<a>`. The two differ whenever another field follows the address. |
| `Legacy.BlankLineSkipped` | cmd/nodes.go:123-128 | A blank line is skipped, where the current reader fails. |
| `ProgressBar.NewProgress` | cmd/progress.go:23-32 | Starts with nothing done, 80 columns wide, and the given description and tasks. |
| `ProgressBar.FreshBarCounts` | cmd/progress.go:23-62 | A new bar that counts one task at a time shows `min(k, tasks)` after `k` finished tasks, and its number of tasks stays the same. |
| `ProgressBar.SetTasks` | cmd/progress.go:35-42 | Changes only the number of tasks, and redraws only when it differs. |
| `ProgressBar.SetDescription` | cmd/progress.go:45-52 | Changes only the description, and redraws only when it differs. |
| `ProgressBar.SetTwiceRedrawsOnce` | cmd/progress.go:38-51 | Setting the same value again does not redraw. |
| `ProgressBar.Add` | cmd/progress.go:55-62 | A no-op without a redraw once `done >= tasks`, including the indeterminate `tasks == 0`. Otherwise it redraws and changes only `done`. `done` reaches `tasks` exactly when `done + completed >= tasks`, and is `done + completed` below that. |
| `ProgressBar.AddCompose` | cmd/progress.go:58-59 | Adding `a` then `b` equals adding `a + b`. |
| `ProgressBar.AddOnesCounts` | cmd/progress.go:55-62 | After `n` single-task additions, `done = min(done + n, tasks)`. |
| `ProgressBar.AddAsWritten` | cmd/progress.go:59 | The source's `Add`. Once `done >= tasks` it changes nothing and does not redraw. Otherwise it redraws, the count never exceeds `tasks`, and the count goes back exactly when `done + completed` reaches 2^64 and wraps. |
| `ProgressBar.AddAsWrittenAgrees` | cmd/progress.go:59 | Without wrap-around, the source's `Add` equals the corrected one. |
| `ProgressBar.AddAsWrittenGoesBack` | cmd/progress.go:59 | With wrap-around, `done` can go back to zero. |
| `ProgressBar.IndeterminateLine` | cmd/progress.go:72-78 | With no tasks, the line is `[ ---- ] `, then the description, spaces, and a final `\r`. It is exactly `width` long, and it exists iff the description fits in `width - 10`. |
| `ProgressBar.ClearLine` | cmd/progress.go:65-70 | `width - 1` spaces, then `\r`. |
| `ProgressBar.ClearCoversLine` | cmd/progress.go:68-74 | The clearing line is exactly as wide as the progress line. |
| `Show.SortedKeys` | cmd/show.go:47-54 | Strictly sorted, holding every key of the map once and nothing else, with length equal to the map's size (so empty for an empty map). This holds for any visiting order. |
| `Show.SortedKeysDeterministic` | cmd/show.go:49-52 | The listing does not depend on the order in which the keys were visited. |

## Left out

- Remote execution (`execScript`, the `oc debug` subprocess, its image, flags and exit codes). This is I/O: its outcome is an input of the model.
- Kubernetes client calls (`clientForContext`, node `List`), `loadConfig` and `NewCommand`'s client construction. These are I/O: node listings and the kubeconfig map are inputs.
- `url.Parse` and `net.LookupIP` in `findAPIServerAddress`. These are network and parsing oracles, passed in as functions. `URL.Hostname` is modelled.
- Goroutines, channels and the progress mutex. Each phase's results are a sequence in an arbitrary arrival order. The missing drain of outstanding tasks after an early return is a concurrency effect and is not modelled.
- The percentage line of `Progress.update` (cmd/progress.go:79-81): float formatting is not modelled. Only the `tasks == 0` line is.
- All writes to `io.Writer`, the debug log, and the printing in cmd/show.go. This is output only.
- Error message text. Each error is a constructor that carries the values the message would format.
- `bufio.Scanner`'s 64 KiB line limit and its `Err()` result (cmd/iproute.go:98-100, cmd/nodes.go:129-131). The model scans lines of any length.
- `len` in Go counts bytes; the model counts characters. This matters only for a non-ASCII description in `ProgressBar.IndeterminateLine`.
- Cobra wiring, flags and environment defaults (cmd/root.go). The logging-only stubs in cmd/block.go and cmd/unblock.go, cmd/logs.go and demo.py are not part of this model.
- Ingress-route addresses: the code has none.
- `Orchestration.UnblockCluster`: for each node it states only success or failure. What the scripts do to the table is stated separately by `Routes.UnblockNode`.
- Running a script under `sh -c` when a line fails part-way. The table model stops at the first failing line, while the shell runs the remaining lines and reports the last one's status. The add and delete scripts fail on no line of the table they were built for, so the proved effects do not depend on this.
- `ProgressBar.IndeterminateLine` and `ProgressBar.ClearLine`: a negative repeat count makes Go's `strings.Repeat` panic; this is modelled as `None`.

## Findings

| source | as written | input that shows it | evidently intended | confidence | as-written member | corrected member |
|---|---|---|---|---|---|---|
| cmd/cluster.go:103 | `c.config.Clusters[c.Context]` looks up the cluster map with the context's name, but that map is keyed by cluster name | context "admin" whose cluster is "api-example", with only cluster "api-example" in the map: "no cluster for context" | follow the context to the cluster it names | medium: login-created kubeconfigs name contexts differently from clusters; not executed | `Discovery.APIServerAddressAsWritten`, `Discovery.AsWrittenMissesRenamedCluster` | `Discovery.FindAPIServerAddress`, `Discovery.InspectBlockedCorrected` (with `Discovery.AsWrittenAgrees`) |
| cmd/cluster.go:113 | `net.LookupIP(server.Host)` passes the URL's host with its port | server "https://api.example.com:6443": the resolver is asked for "api.example.com:6443" | resolve `server.Hostname()`, "api.example.com" | medium: API-server URLs usually carry a port; not executed | `Discovery.APIServerAddressAsWritten`, `Discovery.AsWrittenResolvesPort` | `Discovery.FindAPIServerAddress` (with `Discovery.HostnameDropsPort`) |
| cmd/progress.go:59 | `min(p.done+completed, p.tasks)` adds two `uint`s, and the sum wraps around modulo 2^64 before the minimum is taken | done = 1, tasks = 10, completed = 2^64 - 1: done becomes 0 | `done` never decreases; it becomes `min(done + completed, tasks)` | low: the callers always pass 1; not executed | `ProgressBar.AddAsWritten`, `ProgressBar.AddAsWrittenGoesBack` | `ProgressBar.Add` (with `ProgressBar.AddCompose`, `ProgressBar.AddOnesCounts`) |

=== FILE: discovery.dfy ===
/** Address discovery for the blocked cluster and node-name discovery for
    the target clusters (cmd/cluster.go).

    The Kubernetes API is not modelled: a node listing is an input, either
    the listed nodes or the error the API returned. The kubeconfig holds
    its contexts by context name and its clusters by cluster name, each
    context naming its cluster; parsing the server URL and resolving a host
    name are oracles passed in as functions. */
module Discovery {
  import opened Types
  import opened Ordering

  /** One entry of a node's `status.addresses`. */
  datatype NodeAddress = NodeAddress(kind: string, address: string)

  datatype Node = Node(name: string, addresses: seq<NodeAddress>)

  /** The part of a kubeconfig cluster entry the core reads. */
  datatype ClusterEntry = ClusterEntry(server: string)

  /** A kubeconfig context: the name of the cluster it refers to. */
  datatype ContextEntry = ContextEntry(cluster: string)

  /** The part of a kubeconfig the core reads. A context refers to its
      cluster by name, and that name need not be the context's own (a
      login typically names the context "<namespace>/<cluster>/<user>"). */
  datatype Kubeconfig = Kubeconfig(contexts: map<string, ContextEntry>, clusters: map<string, ClusterEntry>)

  /** The part of a parsed URL the core reads: `URL.Host`, which keeps any
      ":port" after the host name. */
  datatype Url = Url(host: string)

  /** The cluster that becomes unreachable, after inspection. */
  datatype BlockedCluster = BlockedCluster(
    context: string,
    nodeAddresses: seq<string>,
    apiServerAddresses: seq<string>)

  /** A cluster whose nodes receive the blackhole routes, after inspection. */
  datatype TargetCluster = TargetCluster(context: string, nodeNames: seq<string>)

  const ExternalIPType := "ExternalIP"

  predicate IsExternal(a: NodeAddress) {
    a.kind == ExternalIPType
  }

  /** The address of the first entry typed "ExternalIP" among `addrs`. */
  function FirstExternal(node: string, addrs: seq<NodeAddress>): (r: Result<string>)
    ensures r.Ok? <==> exists i | 0 <= i < |addrs| :: IsExternal(addrs[i])
    ensures r.Ok? ==> exists i | 0 <= i < |addrs| ::
      IsExternal(addrs[i]) && addrs[i].address == r.value
      && forall j | 0 <= j < i :: !IsExternal(addrs[j])
    ensures r.Err? ==> r.error == NoExternalIP(node)
  {
    if addrs == [] then Err(NoExternalIP(node))
    else if IsExternal(addrs[0]) then Ok(addrs[0].address)
    else
      var r := FirstExternal(node, addrs[1..]);
      assert forall i | 0 <= i < |addrs| - 1 :: addrs[1..][i] == addrs[i + 1];
      r
  }

  /** `externalIP`: the node's first external address, or an error naming
      the node. */
  function ExternalIP(node: Node): (r: Result<string>)
    ensures r.Ok? <==> exists i | 0 <= i < |node.addresses| :: IsExternal(node.addresses[i])
    ensures r.Ok? ==> exists i | 0 <= i < |node.addresses| ::
      IsExternal(node.addresses[i]) && node.addresses[i].address == r.value
      && forall j | 0 <= j < i :: !IsExternal(node.addresses[j])
    ensures r.Err? ==> r.error == NoExternalIP(node.name)
  {
    FirstExternal(node.name, node.addresses)
  }

  /** `nodes[i]` is the first node without an external address, and `e`
      its error. */
  predicate FirstFailure(nodes: seq<Node>, e: Error) {
    exists i | 0 <= i < |nodes| ::
      ExternalIP(nodes[i]).Err? && e == ExternalIP(nodes[i]).error
      && forall j | 0 <= j < i :: ExternalIP(nodes[j]).Ok?
  }

  lemma FirstFailureShift(nodes: seq<Node>, e: Error)
    requires nodes != [] && ExternalIP(nodes[0]).Ok?
    requires FirstFailure(nodes[1..], e)
    ensures FirstFailure(nodes, e)
  {
    var tail := nodes[1..];
    var i :| 0 <= i < |tail| && ExternalIP(tail[i]).Err? && e == ExternalIP(tail[i]).error
      && forall j | 0 <= j < i :: ExternalIP(tail[j]).Ok?;
    assert nodes[i + 1] == tail[i];
    assert forall j | 1 <= j < i + 1 :: nodes[j] == tail[j - 1];
  }

  /** The loop of `findNodesAddresses`: one external address per node, in
      listing order, stopping at the first node without one. */
  function ExternalAddresses(nodes: seq<Node>): (r: Result<seq<string>>)
    ensures r.Ok? <==> forall i | 0 <= i < |nodes| :: ExternalIP(nodes[i]).Ok?
    ensures r.Ok? ==> (|r.value| == |nodes|
      && forall i | 0 <= i < |nodes| :: r.value[i] == ExternalIP(nodes[i]).value)
    ensures r.Err? ==> FirstFailure(nodes, r.error)
  {
    if nodes == [] then Ok([])
    else
      var head := ExternalIP(nodes[0]);
      if head.Err? then
        assert FirstFailure(nodes, head.error) by {
          assert ExternalIP(nodes[0]).Err?;
        }
        Err(head.error)
      else
        var tail := nodes[1..];
        var rest := ExternalAddresses(tail);
        if rest.Err? then
          FirstFailureShift(nodes, rest.error);
          Err(rest.error)
        else
          assert forall i | 0 <= i < |nodes| - 1 :: tail[i] == nodes[i + 1];
          Ok([head.value] + rest.value)
  }

  /** `findNodesAddresses`: a failed listing, a node without an external
      address, or an empty result is an error. */
  function FindNodesAddresses(listing: Result<seq<Node>>): (r: Result<seq<string>>)
    ensures listing.Err? ==> r == Err(listing.error)
    ensures listing == Ok([]) ==> r == Err(NoNodeAddresses)
    ensures r.Ok? <==> (listing.Ok? && listing.value != []
      && forall i | 0 <= i < |listing.value| :: ExternalIP(listing.value[i]).Ok?)
    ensures r.Ok? ==> (|r.value| == |listing.value|
      && forall i | 0 <= i < |listing.value| :: r.value[i] == ExternalIP(listing.value[i]).value)
  {
    match listing
    case Err(e) => Err(e)
    case Ok(nodes) =>
      match ExternalAddresses(nodes)
      case Err(e) => Err(e)
      case Ok(res) => if |res| == 0 then Err(NoNodeAddresses) else Ok(res)
  }

  /** The names of the listed nodes, in listing order. */
  function Names(nodes: seq<Node>): (r: seq<string>)
    ensures |r| == |nodes|
    ensures forall i | 0 <= i < |nodes| :: r[i] == nodes[i].name
  {
    if nodes == [] then [] else [nodes[0].name] + Names(nodes[1..])
  }

  /** `findNodeNames`: a failed listing or an empty result is an error. */
  function FindNodeNames(listing: Result<seq<Node>>): (r: Result<seq<string>>)
    ensures listing.Err? ==> r == Err(listing.error)
    ensures listing == Ok([]) ==> r == Err(NoTargetNodes)
    ensures r.Ok? <==> listing.Ok? && listing.value != []
    ensures r.Ok? ==> (|r.value| == |listing.value|
      && forall i | 0 <= i < |listing.value| :: r.value[i] == listing.value[i].name)
  {
    match listing
    case Err(e) => Err(e)
    case Ok(nodes) =>
      var res := Names(nodes);
      if |res| == 0 then Err(NoTargetNodes) else Ok(res)
  }

  // ---------------------------------------------------------------------
  // findAPIServerAddress

  /** Go's `validOptionalPort`: empty, or ':' followed by digits only. */
  predicate ValidOptionalPort(p: string) {
    p == [] || (p[0] == ':' && forall k | 1 <= k < |p| :: '0' <= p[k] <= '9')
  }

  /** The index of the last ':' in `s`, or -1. */
  function LastColon(s: string): (r: int)
    ensures -1 <= r < |s|
    ensures r >= 0 ==> s[r] == ':'
    ensures forall k | r < k < |s| :: s[k] != ':'
  {
    if s == [] then -1
    else if s[|s| - 1] == ':' then |s| - 1
    else LastColon(s[..|s| - 1])
  }

  /** `URL.Hostname`: the host without a ":port" suffix and without the
      brackets around an IPv6 literal. */
  function Hostname(host: string): (r: string)
    ensures |r| <= |host|
  {
    var c := LastColon(host);
    var h := if c >= 0 && ValidOptionalPort(host[c..]) then host[..c] else host;
    if |h| >= 2 && h[0] == '[' && h[|h| - 1] == ']' then h[1..|h| - 1] else h
  }

  /** A host name as DNS knows it: non-empty, no ':', and not starting
      with '['. */
  predicate IsHostName(h: string) {
    h != [] && ':' !in h && h[0] != '['
  }

  /** A host name without a port is its own `Hostname`. */
  lemma HostnameOfName(h: string)
    requires IsHostName(h)
    ensures Hostname(h) == h
  {
    assert forall k | 0 <= k < |h| :: h[k] != ':';
  }

  /** `Hostname` removes a numeric port. */
  lemma HostnameDropsPort(h: string, port: string)
    requires IsHostName(h)
    requires forall k | 0 <= k < |port| :: '0' <= port[k] <= '9'
    ensures Hostname(h + ":" + port) == h
  {
    var host := h + ":" + port;
    assert host[|h|] == ':';
    assert forall k | |h| < k < |host| :: host[k] == port[k - |h| - 1];
    assert forall k | |h| < k < |host| :: host[k] != ':';
    assert host[|h|..] == ":" + port;
    assert host[..|h|] == h;
  }

  /** `findAPIServerAddress` as written: it looks the cluster up with the
      context's name, and resolves `URL.Host`, port included. */
  function APIServerAddressAsWritten(
    context: string,
    config: Kubeconfig,
    parseURL: string -> Option<Url>,
    lookupIP: string -> Result<seq<string>>): (r: Result<seq<string>>)
    ensures context !in config.clusters ==> r == Err(NoClusterForContext(context))
    ensures context in config.clusters && parseURL(config.clusters[context].server).None? ==>
      r == Err(BadServerURL(context, config.clusters[context].server))
    ensures context in config.clusters && parseURL(config.clusters[context].server).Some? ==>
      r == lookupIP(parseURL(config.clusters[context].server).value.host)
  {
    if context !in config.clusters then Err(NoClusterForContext(context))
    else
      var server := config.clusters[context].server;
      match parseURL(server)
      case None => Err(BadServerURL(context, server))
      case Some(url) => lookupIP(url.host)
  }

  /** The context exists and the cluster it names exists. */
  predicate HasCluster(config: Kubeconfig, context: string) {
    context in config.contexts && config.contexts[context].cluster in config.clusters
  }

  function ClusterFor(config: Kubeconfig, context: string): ClusterEntry
    requires HasCluster(config, context)
  {
    config.clusters[config.contexts[context].cluster]
  }

  /** `findAPIServerAddress`: the context must name a cluster entry whose
      server URL parses; the addresses are, success or error, what
      resolving the URL's host name yields. `parseURL` stands for
      `url.Parse` (None when it fails) and `lookupIP` for `net.LookupIP`
      followed by `ip.String()`. This follows the context to its cluster
      and drops the port; the code as written is
      `APIServerAddressAsWritten`. */
  function FindAPIServerAddress(
    context: string,
    config: Kubeconfig,
    parseURL: string -> Option<Url>,
    lookupIP: string -> Result<seq<string>>): (r: Result<seq<string>>)
    ensures !HasCluster(config, context) ==> r == Err(NoClusterForContext(context))
    ensures HasCluster(config, context) && parseURL(ClusterFor(config, context).server).None? ==>
      r == Err(BadServerURL(context, ClusterFor(config, context).server))
    ensures HasCluster(config, context) && parseURL(ClusterFor(config, context).server).Some? ==>
      r == lookupIP(Hostname(parseURL(ClusterFor(config, context).server).value.host))
  {
    if !HasCluster(config, context) then Err(NoClusterForContext(context))
    else
      var server := ClusterFor(config, context).server;
      match parseURL(server)
      case None => Err(BadServerURL(context, server))
      case Some(url) => lookupIP(Hostname(url.host))
  }

  /** Where the context is named after its cluster and the server URL has
      no port, the code as written and the corrected lookup agree. */
  lemma AsWrittenAgrees(
    context: string,
    config: Kubeconfig,
    parseURL: string -> Option<Url>,
    lookupIP: string -> Result<seq<string>>)
    requires context in config.contexts && config.contexts[context].cluster == context
    requires context in config.clusters && parseURL(config.clusters[context].server).Some? ==>
      IsHostName(parseURL(config.clusters[context].server).value.host)
    ensures APIServerAddressAsWritten(context, config, parseURL, lookupIP)
         == FindAPIServerAddress(context, config, parseURL, lookupIP)
  {
    if context in config.clusters && parseURL(config.clusters[context].server).Some? {
      HostnameOfName(parseURL(config.clusters[context].server).value.host);
    }
  }

  /** A context named differently from its cluster: the code as written
      finds no cluster, where following the context finds it and resolves
      its server. */
  lemma AsWrittenMissesRenamedCluster(
    context: string,
    name: string,
    entry: ClusterEntry,
    parseURL: string -> Option<Url>,
    lookupIP: string -> Result<seq<string>>)
    requires context != name
    requires parseURL(entry.server).Some? && lookupIP(Hostname(parseURL(entry.server).value.host)).Ok?
    ensures APIServerAddressAsWritten(context, Kubeconfig(map[context := ContextEntry(name)], map[name := entry]), parseURL, lookupIP)
         == Err(NoClusterForContext(context))
    ensures FindAPIServerAddress(context, Kubeconfig(map[context := ContextEntry(name)], map[name := entry]), parseURL, lookupIP).Ok?
  {
  }

  /** A server URL with a port, such as "https://api.example.com:6443":
      the code as written asks the resolver for "api.example.com:6443",
      which is not a host name, where the corrected lookup asks for
      "api.example.com". */
  lemma AsWrittenResolvesPort(
    context: string,
    server: string,
    h: string,
    port: string,
    parseURL: string -> Option<Url>,
    lookupIP: string -> Result<seq<string>>)
    requires IsHostName(h)
    requires forall k | 0 <= k < |port| :: '0' <= port[k] <= '9'
    requires parseURL(server) == Some(Url(h + ":" + port))
    ensures !IsHostName(h + ":" + port)
    ensures APIServerAddressAsWritten(context, Kubeconfig(map[context := ContextEntry(context)], map[context := ClusterEntry(server)]), parseURL, lookupIP)
         == lookupIP(h + ":" + port)
    ensures FindAPIServerAddress(context, Kubeconfig(map[context := ContextEntry(context)], map[context := ClusterEntry(server)]), parseURL, lookupIP)
         == lookupIP(h)
  {
    assert (h + ":" + port)[|h|] == ':';
    HostnameDropsPort(h, port);
  }

  /** `BlockedCluster.Inspect`: node addresses first, then API-server
      addresses as the code looks them up (`APIServerAddressAsWritten`);
      the first failing step decides the error. */
  function InspectBlocked(
    context: string,
    listing: Result<seq<Node>>,
    config: Kubeconfig,
    parseURL: string -> Option<Url>,
    lookupIP: string -> Result<seq<string>>): (r: Result<BlockedCluster>)
    ensures FindNodesAddresses(listing).Err? ==> r == Err(FindNodesAddresses(listing).error)
    ensures FindNodesAddresses(listing).Ok? && APIServerAddressAsWritten(context, config, parseURL, lookupIP).Err? ==>
      r == Err(APIServerAddressAsWritten(context, config, parseURL, lookupIP).error)
    ensures r.Ok? <==> (FindNodesAddresses(listing).Ok?
      && APIServerAddressAsWritten(context, config, parseURL, lookupIP).Ok?)
    ensures r.Ok? ==> r.value == BlockedCluster(context,
      FindNodesAddresses(listing).value,
      APIServerAddressAsWritten(context, config, parseURL, lookupIP).value)
  {
    match FindNodesAddresses(listing)
    case Err(e) => Err(e)
    case Ok(nodeAddresses) =>
      match APIServerAddressAsWritten(context, config, parseURL, lookupIP)
      case Err(e) => Err(e)
      case Ok(apiAddresses) => Ok(BlockedCluster(context, nodeAddresses, apiAddresses))
  }

  /** The inspection with the corrected API-server lookup
      (`FindAPIServerAddress`): it follows the context to its cluster and
      resolves the host name without its port. */
  function InspectBlockedCorrected(
    context: string,
    listing: Result<seq<Node>>,
    config: Kubeconfig,
    parseURL: string -> Option<Url>,
    lookupIP: string -> Result<seq<string>>): (r: Result<BlockedCluster>)
    ensures FindNodesAddresses(listing).Err? ==> r == Err(FindNodesAddresses(listing).error)
    ensures FindNodesAddresses(listing).Ok? && FindAPIServerAddress(context, config, parseURL, lookupIP).Err? ==>
      r == Err(FindAPIServerAddress(context, config, parseURL, lookupIP).error)
    ensures r.Ok? <==> (FindNodesAddresses(listing).Ok?
      && FindAPIServerAddress(context, config, parseURL, lookupIP).Ok?)
    ensures r.Ok? ==> r.value == BlockedCluster(context,
      FindNodesAddresses(listing).value,
      FindAPIServerAddress(context, config, parseURL, lookupIP).value)
  {
    match FindNodesAddresses(listing)
    case Err(e) => Err(e)
    case Ok(nodeAddresses) =>
      match FindAPIServerAddress(context, config, parseURL, lookupIP)
      case Err(e) => Err(e)
      case Ok(apiAddresses) => Ok(BlockedCluster(context, nodeAddresses, apiAddresses))
  }

  /** Where the context is named after its cluster and the server URL has
      no port, the two inspections agree. */
  lemma InspectionsAgree(
    context: string,
    listing: Result<seq<Node>>,
    config: Kubeconfig,
    parseURL: string -> Option<Url>,
    lookupIP: string -> Result<seq<string>>)
    requires context in config.contexts && config.contexts[context].cluster == context
    requires context in config.clusters && parseURL(config.clusters[context].server).Some? ==>
      IsHostName(parseURL(config.clusters[context].server).value.host)
    ensures InspectBlocked(context, listing, config, parseURL, lookupIP)
         == InspectBlockedCorrected(context, listing, config, parseURL, lookupIP)
  {
    AsWrittenAgrees(context, config, parseURL, lookupIP);
  }

  /** Whatever the configuration and the resolver would say, a failing node
      discovery ends the inspection with its own error: the API-server
      lookup is never consulted. */
  lemma InspectStopsAtNodeFailure(
    context: string,
    listing: Result<seq<Node>>,
    config1: Kubeconfig,
    parse1: string -> Option<Url>,
    lookup1: string -> Result<seq<string>>,
    config2: Kubeconfig,
    parse2: string -> Option<Url>,
    lookup2: string -> Result<seq<string>>)
    requires FindNodesAddresses(listing).Err?
    ensures InspectBlocked(context, listing, config1, parse1, lookup1)
         == InspectBlocked(context, listing, config2, parse2, lookup2)
         == Err(FindNodesAddresses(listing).error)
  {
  }

  /** `TargetCluster.Inspect`. */
  function InspectTarget(context: string, listing: Result<seq<Node>>): (r: Result<TargetCluster>)
    ensures r.Ok? <==> FindNodeNames(listing).Ok?
    ensures r.Ok? ==> (r.value.context == context && r.value.nodeNames != []
      && r.value.nodeNames == FindNodeNames(listing).value)
    ensures r.Err? ==> r.error == FindNodeNames(listing).error
  {
    match FindNodeNames(listing)
    case Err(e) => Err(e)
    case Ok(names) => Ok(TargetCluster(context, names))
  }

  /** `AllAddresses`: every address of the blocked cluster once, sorted. */
  function AllAddresses(c: BlockedCluster): (r: seq<string>)
    ensures StrictlySorted(r)
    ensures Elems(r) == Elems(c.nodeAddresses) + Elems(c.apiServerAddresses)
  {
    ElemsAppend(c.nodeAddresses, c.apiServerAddresses);
    SortUnique(c.nodeAddresses + c.apiServerAddresses)
  }

  /** The listing depends only on the two address sets, not on the order or
      the repetitions in which discovery reported them. */
  lemma AllAddressesCanonical(c: BlockedCluster, d: BlockedCluster)
    requires Elems(c.nodeAddresses) + Elems(c.apiServerAddresses)
          == Elems(d.nodeAddresses) + Elems(d.apiServerAddresses)
    ensures AllAddresses(c) == AllAddresses(d)
  {
    SortedUnique(AllAddresses(c), AllAddresses(d));
  }

  /** A node address already reported by the API server appears once. */
  lemma AllAddressesUnionExample()
    ensures AllAddresses(BlockedCluster("c", ["10.0.0.1"], ["10.0.0.1", "10.0.0.2"]))
         == ["10.0.0.1", "10.0.0.2"]
  {
    var expected := ["10.0.0.1", "10.0.0.2"];
    assert Less("10.0.0.1", "10.0.0.2") by {
      var a, b := "10.0.0.1", "10.0.0.2";
      assert a[..7] == b[..7];
      assert a == a[..7] + "1" && b == b[..7] + "2";
      LessCommonPrefix(a[..7], "1", "2");
    }
    assert StrictlySorted(expected);
    var c := BlockedCluster("c", ["10.0.0.1"], ["10.0.0.1", "10.0.0.2"]);
    assert Elems(expected) == {"10.0.0.1", "10.0.0.2"};
    assert Elems(c.nodeAddresses) + Elems(c.apiServerAddresses) == {"10.0.0.1", "10.0.0.2"};
    SortedUnique(AllAddresses(c), expected);
  }

  lemma {:induction false} LessCommonPrefix(p: string, a: string, b: string)
    requires Less(a, b)
    ensures Less(p + a, p + b)
    decreases |p|
  {
    if p == [] {
      assert p + a == a && p + b == b;
    } else {
      assert (p + a)[1..] == p[1..] + a && (p + b)[1..] == p[1..] + b;
      LessCommonPrefix(p[1..], a, b);
    }
  }
}

=== FILE: legacy.dfy ===
/** The older generation of the plugin (cmd/nodes.go), kept apart from the
    current one: a single target context, helpers that end the program on
    failure instead of returning an error, and a lenient reader of the
    node's route table.

    Ending the program (`errlog.Fatal`) is modelled as returning the error
    the current generation would return for the same cause. The helpers are
    written as loops, as in the source, and each is proved to agree with
    the current generation's definition. */
module Legacy {
  import opened Types
  import opened Text
  import opened Discovery
  import Routes

  /** `validateContexts`: the blocked cluster and the target must differ. */
  function ValidateContext(blocked: string, target: string): (r: Result<()>)
    ensures r.Err? <==> blocked == target
    ensures r.Err? ==> r.error == SameContext(blocked)
  {
    if blocked == target then Err(SameContext(blocked)) else Ok(())
  }

  /** `externalIP`: the loop over the node's addresses; it stops at the
      first external one. */
  method NodeExternalIP(node: Node) returns (r: Result<string>)
    ensures r.Ok? <==> exists i | 0 <= i < |node.addresses| :: IsExternal(node.addresses[i])
    ensures r.Err? ==> r.error == NoExternalIP(node.name)
    ensures r == ExternalIP(node)
  {
    var i := 0;
    while i < |node.addresses|
      invariant 0 <= i <= |node.addresses|
      invariant forall j | 0 <= j < i :: !IsExternal(node.addresses[j])
    {
      if node.addresses[i].kind == "ExternalIP" {
        FirstExternalIs(node, i);
        return Ok(node.addresses[i].address);
      }
      i := i + 1;
    }
    return Err(NoExternalIP(node.name));
  }

  /** The external address found at the first external index is the one
      `ExternalIP` picks. */
  lemma FirstExternalIs(node: Node, i: nat)
    requires i < |node.addresses| && IsExternal(node.addresses[i])
    requires forall j | 0 <= j < i :: !IsExternal(node.addresses[j])
    ensures ExternalIP(node) == Ok(node.addresses[i].address)
  {
    var r := ExternalIP(node);
    var k :| 0 <= k < |node.addresses| && IsExternal(node.addresses[k])
      && node.addresses[k].address == r.value
      && forall j | 0 <= j < k :: !IsExternal(node.addresses[j]);
  }

  /** `nodesAddresses`: one external address per node, in listing order;
      a failed listing, a node without an external address or an empty
      listing ends the program. It agrees with `findNodesAddresses`. */
  method NodesAddresses(listing: Result<seq<Node>>) returns (r: Result<seq<string>>)
    ensures r.Ok? ==> listing.Ok? && |r.value| == |listing.value| > 0
    ensures r == FindNodesAddresses(listing)
  {
    if listing.Err? {
      return Err(listing.error);
    }
    var nodes := listing.value;
    var res: seq<string> := [];
    var i := 0;
    while i < |nodes|
      invariant 0 <= i <= |nodes|
      invariant |res| == i
      invariant forall j | 0 <= j < i :: ExternalIP(nodes[j]).Ok? && res[j] == ExternalIP(nodes[j]).value
    {
      var a := NodeExternalIP(nodes[i]);
      if a.Err? {
        FirstFailingNode(nodes, i);
        return Err(a.error);
      }
      res := res + [a.value];
      i := i + 1;
    }
    assert ExternalAddresses(nodes).Ok?;
    assert res == ExternalAddresses(nodes).value;
    if |res| == 0 {
      return Err(NoNodeAddresses);
    }
    return Ok(res);
  }

  /** The first node without an external address decides the error of
      `findNodesAddresses`. */
  lemma FirstFailingNode(nodes: seq<Node>, i: nat)
    requires i < |nodes| && ExternalIP(nodes[i]).Err?
    requires forall j | 0 <= j < i :: ExternalIP(nodes[j]).Ok?
    ensures FindNodesAddresses(Ok(nodes)) == Err(ExternalIP(nodes[i]).error)
  {
    var r := ExternalAddresses(nodes);
    var k :| 0 <= k < |nodes| && ExternalIP(nodes[k]).Err? && r.error == ExternalIP(nodes[k]).error
      && forall j | 0 <= j < k :: ExternalIP(nodes[j]).Ok?;
  }

  /** `nodesNames`: the node names in listing order; a failed or empty
      listing ends the program. It agrees with `findNodeNames`. */
  method NodesNames(listing: Result<seq<Node>>) returns (r: Result<seq<string>>)
    ensures r.Ok? ==> listing.Ok? && |r.value| == |listing.value| > 0
    ensures r == FindNodeNames(listing)
  {
    if listing.Err? {
      return Err(listing.error);
    }
    var nodes := listing.value;
    var res: seq<string> := [];
    var i := 0;
    while i < |nodes|
      invariant 0 <= i <= |nodes|
      invariant |res| == i
      invariant forall j | 0 <= j < i :: res[j] == nodes[j].name
    {
      res := res + [nodes[i].name];
      i := i + 1;
    }
    assert res == Names(nodes);
    if |res| == 0 {
      return Err(NoTargetNodes);
    }
    return Ok(res);
  }

  // ---------------------------------------------------------------------
  // findBlackholes

  /** `strings.SplitN(s, " ", 2)`: the whole string when it holds no space,
      otherwise the text before the first space and the text after it. */
  function SplitOnce(s: string): (r: seq<string>)
    ensures |r| == 1 <==> ' ' !in s
    ensures |r| == 1 || |r| == 2
    ensures |r| == 1 ==> r[0] == s
    ensures |r| == 2 ==> s == r[0] + " " + r[1] && ' ' !in r[0]
  {
    match IndexOf(s, ' ')
    case None => [s]
    case Some(i) =>
      assert s == s[..i] + " " + s[i + 1..];
      [s[..i], s[i + 1..]]
  }

  const BlackholePrefix := "blackhole "

  /** What one line of `ip route` output contributes: for a line splitting
      into "blackhole" and a remainder, the remainder with its surrounding
      spaces removed. */
  function LineBlackhole(line: string): Option<string> {
    var route := SplitOnce(line);
    if |route| == 2 && route[0] == "blackhole" then Some(TrimSpaces(route[1])) else None
  }

  /** A line contributes exactly when it starts with "blackhole ", and what
      it contributes is all that follows, trimmed: the address together
      with any further fields. */
  lemma LineBlackholeIff(line: string)
    ensures LineBlackhole(line).Some? <==> HasPrefix(line, BlackholePrefix)
    ensures LineBlackhole(line).Some? ==> LineBlackhole(line).value == TrimSpaces(line[|BlackholePrefix|..])
  {
    var route := SplitOnce(line);
    if HasPrefix(line, BlackholePrefix) {
      assert line == "blackhole" + " " + line[10..];
      assert line[9] == ' ';
      var i := IndexOf(line, ' ').value;
      assert forall k | 0 <= k < 9 :: line[k] != ' ';
      assert i == 9;
    }
    if |route| == 2 && route[0] == "blackhole" {
      assert line == "blackhole" + " " + route[1];
      assert line[..10] == BlackholePrefix;
      assert line[10..] == route[1];
    }
  }

  /** The routes read from the lines: every line's contribution. */
  function Blackholes(lines: seq<string>): set<string> {
    if lines == [] then {}
    else (match LineBlackhole(lines[0]) case Some(x) => {x} case None => {}) + Blackholes(lines[1..])
  }

  lemma {:induction false} BlackholesMembers(lines: seq<string>)
    ensures forall x :: x in Blackholes(lines) <==> exists i | 0 <= i < |lines| :: LineBlackhole(lines[i]) == Some(x)
  {
    if lines != [] {
      BlackholesMembers(lines[1..]);
      var rest := Blackholes(lines[1..]);
      forall x ensures x in Blackholes(lines) <==> exists i | 0 <= i < |lines| :: LineBlackhole(lines[i]) == Some(x) {
        if x in rest {
          var i :| 0 <= i < |lines| - 1 && LineBlackhole(lines[1..][i]) == Some(x);
          assert LineBlackhole(lines[i + 1]) == Some(x);
        }
        if exists i | 0 <= i < |lines| :: LineBlackhole(lines[i]) == Some(x) {
          var i :| 0 <= i < |lines| && LineBlackhole(lines[i]) == Some(x);
          if i > 0 {
            assert lines[1..][i - 1] == lines[i];
          }
        }
      }
    }
  }

  /** Some line of `lines` starts with "blackhole " and `x` is what
      follows, trimmed. */
  predicate ReadsAs(lines: seq<string>, x: string) {
    exists i | 0 <= i < |lines| ::
      HasPrefix(lines[i], BlackholePrefix) && x == TrimSpaces(lines[i][|BlackholePrefix|..])
  }

  /** `findBlackholes`: the failure of the `ip route` run, or the routes
      read from its output. Lines of any other shape are skipped, so the
      content never makes it fail. */
  function FindBlackholes(output: Result<string>): (r: Result<set<string>>)
    ensures output.Err? ==> r == Err(output.error)
    ensures output.Ok? ==> r.Ok?
    ensures output.Ok? ==> forall x :: x in r.value <==> ReadsAs(Lines(output.value), x)
  {
    match output
    case Err(e) => Err(e)
    case Ok(out) =>
      var lines := Lines(out);
      var r := Blackholes(lines);
      assert forall x :: x in r <==> ReadsAs(lines, x) by {
        BlackholesMembers(lines);
        forall x ensures x in r <==> ReadsAs(lines, x) {
          if x in r {
            var i :| 0 <= i < |lines| && LineBlackhole(lines[i]) == Some(x);
            LineBlackholeIff(lines[i]);
          }
          if ReadsAs(lines, x) {
            var i :| 0 <= i < |lines| && HasPrefix(lines[i], BlackholePrefix)
              && x == TrimSpaces(lines[i][|BlackholePrefix|..]);
            LineBlackholeIff(lines[i]);
          }
        }
      }
      Ok(r)
  }

  /** Output made of whole lines reads as those lines. */
  lemma FindJoined(ls: seq<string>)
    requires forall i | 0 <= i < |ls| :: IsLine(ls[i])
    ensures FindBlackholes(Ok(JoinLines(ls))) == Ok(Blackholes(ls))
  {
    LinesJoin(ls);
  }

  lemma {:induction false} BlackholesAppend(a: seq<string>, b: seq<string>)
    ensures Blackholes(a + b) == Blackholes(a) + Blackholes(b)
  {
    if a == [] {
      assert a + b == b;
    } else {
      assert (a + b)[0] == a[0];
      assert (a + b)[1..] == a[1..] + b;
      BlackholesAppend(a[1..], b);
    }
  }

  /** The routes read from a single line. */
  lemma BlackholesOne(line: string)
    ensures Blackholes([line]) == if HasPrefix(line, BlackholePrefix) then {TrimSpaces(line[|BlackholePrefix|..])} else {}
  {
    LineBlackholeIff(line);
    assert [line][1..] == [];
  }

  /** A line that is not a blackhole route changes nothing: inserting it
      anywhere in the output leaves the result as it was. */
  lemma SkipsOtherLines(before: seq<string>, other: string, after: seq<string>)
    requires forall i | 0 <= i < |before| :: IsLine(before[i])
    requires forall i | 0 <= i < |after| :: IsLine(after[i])
    requires IsLine(other) && !HasPrefix(other, BlackholePrefix)
    ensures FindBlackholes(Ok(JoinLines(before + [other] + after))) == FindBlackholes(Ok(JoinLines(before + after)))
  {
    var with := before + [other] + after;
    assert forall i | 0 <= i < |with| :: IsLine(with[i]) by {
      forall i | 0 <= i < |with| ensures IsLine(with[i]) {
        if i < |before| {
          assert with[i] == before[i];
        } else if i > |before| {
          assert with[i] == after[i - |before| - 1];
        }
      }
    }
    FindJoined(with);
    FindJoined(before + after);
    BlackholesSkip(before, other, after);
  }

  lemma BlackholesSkip(before: seq<string>, other: string, after: seq<string>)
    requires !HasPrefix(other, BlackholePrefix)
    ensures Blackholes(before + [other] + after) == Blackholes(before + after)
  {
    BlackholesOne(other);
    BlackholesAppend(before, [other]);
    BlackholesAppend(before + [other], after);
    BlackholesAppend(before, after);
  }

  /** Output made of one line reads as that line alone. */
  lemma OneLineOutput(line: string)
    requires IsLine(line)
    ensures FindBlackholes(Ok(line + "\n")) == Ok(Blackholes([line]))
  {
    FindJoined([line]);
    assert JoinLines([line]) == line + "\n";
  }

  /** A route line yields everything after "blackhole ", trimmed. */
  lemma OneRouteLine(rem: string)
    requires IsLine(BlackholePrefix + rem)
    ensures FindBlackholes(Ok(BlackholePrefix + rem + "\n")) == Ok({TrimSpaces(rem)})
  {
    var line := BlackholePrefix + rem;
    OneLineOutput(line);
    BlackholesOne(line);
    assert line[..|BlackholePrefix|] == BlackholePrefix;
    assert line[|BlackholePrefix|..] == rem;
  }

  /** Trimming text that starts with a word and a space, followed by more
      text beginning with a non-space, keeps more than that word. */
  lemma TrimKeepsRest(a: string, rest: string)
    requires IsWord(a) && rest != [] && rest[0] != ' '
    ensures TrimSpaces(a + " " + rest) != a
  {
    var s := a + " " + rest;
    var r := TrimSpaces(s);
    var i :| PaddedBySpaces(s, r, i);
    assert s[0] == a[0] && !IsSpace(a[0]);
    assert s[|a| + 1] == rest[0];
  }

  /** On a route line of the IPv6 shape, "blackhole <address> dev lo metric
      1024 pref medium " (with its trailing space), the older reader keeps
      everything after "blackhole ", trimmed, while the current one keeps
      only the address; the two differ whenever further fields follow. */
  lemma ReadersDisagreeOnIPv6(context: string, node: string, a: string, rest: string)
    requires Routes.IsAddress(a) && IsLine(rest)
    ensures FindBlackholes(Ok("blackhole " + a + " " + rest + "\n")) == Ok({TrimSpaces(a + " " + rest)})
    ensures Routes.FindBlackholeRoutes(context, node, Ok("blackhole " + a + " " + rest + "\n")) == Ok({a})
    ensures rest != [] && rest[0] != ' ' ==> TrimSpaces(a + " " + rest) != a
  {
    var line := "blackhole " + a + " " + rest;
    var rem := a + " " + rest;
    assert line == BlackholePrefix + rem;
    assert IsWord("blackhole");
    Routes.RouteLineIsLine("blackhole", a, rest);
    Routes.ParseSingleRoute(context, node, a, rest);
    OneRouteLine(rem);
    if rest != [] && rest[0] != ' ' {
      TrimKeepsRest(a, rest);
    }
  }

  /** A blank line is skipped, where the current reader rejects it. */
  lemma BlankLineSkipped(context: string, node: string)
    ensures FindBlackholes(Ok("\n")) == Ok({})
    ensures Routes.FindBlackholeRoutes(context, node, Ok("\n")).Err?
  {
    Routes.ParseRejectsBlankLine(context, node);
    OneLineOutput("");
    BlackholesOne("");
  }
}

=== FILE: orchestration.dfy ===
/** The decisions of the command layer (cmd/command.go): validating the
    contexts, counting and fanning out the per-node tasks, taking the first
    error of a phase, and turning per-node route tables into a status per
    target cluster.

    Goroutines and channels are not modelled. A phase's tasks report in
    some order; the model receives that order as a sequence (`arrival`),
    required to be a permutation of the tasks, and the outcome of each
    task as a function of the task. */
module Orchestration {
  import opened Types
  import opened Ordering
  import opened Discovery
  import opened Routes

  /** `BlackholeStatus`: how much of the blocked cluster a node blocks. */
  datatype Status = Unblocked | Blocked | PartlyBlocked

  /** The status of one target: whether it is consistent, and the status of
      each node. */
  datatype ClusterStatus = ClusterStatus(valid: bool, nodes: map<string, Status>)

  /** The `Result` a status task sends: its node, the node's blackhole
      routes (empty when the query failed) and the query's error, if any. */
  datatype NodeResult = NodeResult(context: string, node: string, routes: set<string>, err: Option<Error>)

  /** One per-node task of a phase. */
  datatype Task = Task(context: string, node: string)

  /** The inspected clusters a phase works on. */
  datatype Command = Command(blocked: BlockedCluster, targets: seq<TargetCluster>)

  // ---------------------------------------------------------------------
  // validateContexts

  /** `validateContexts`: the targets must be distinct (the test compares
      the size of their set with their number) and must not include the
      blocked context. The duplicate test comes first. */
  function ValidateContexts(blocked: string, targets: seq<string>): (r: Result<()>)
    ensures r == Err(DuplicateContexts(targets)) <==> !Distinct(targets)
    ensures r == Err(BlockedInTargets(blocked, targets)) <==> Distinct(targets) && blocked in targets
    ensures r.Ok? <==> Distinct(targets) && blocked !in targets
  {
    DistinctIffCard(targets);
    if |Elems(targets)| != |targets| then Err(DuplicateContexts(targets))
    else if blocked in Elems(targets) then Err(BlockedInTargets(blocked, targets))
    else Ok(())
  }

  /** A repeated target is reported as such even when the blocked context
      is among the targets too. */
  lemma DuplicateReportedFirst(blocked: string, other: string)
    ensures ValidateContexts(blocked, [blocked, other, blocked]) == Err(DuplicateContexts([blocked, other, blocked]))
  {
    var t := [blocked, other, blocked];
    assert t[0] == t[2];
  }

  // ---------------------------------------------------------------------
  // firstError

  /** `firstError`: the first error among the first `count` values received
      (nil when there is none). Receiving blocks until `count` values have
      arrived, so at least `count` values must be sent. */
  function FirstError(errors: seq<Option<Error>>, count: nat): (r: Option<Error>)
    requires count <= |errors|
    ensures r.None? <==> forall i | 0 <= i < count :: errors[i].None?
    ensures r.Some? ==> exists i | 0 <= i < count ::
      errors[i] == r && forall j | 0 <= j < i :: errors[j].None?
  {
    if count == 0 then None
    else if errors[0].Some? then errors[0]
    else
      var r := FirstError(errors[1..], count - 1);
      assert forall i | 0 <= i < count - 1 :: errors[1..][i] == errors[i + 1];
      r
  }

  // ---------------------------------------------------------------------
  // targetNodeCount and the fan-out

  /** The tasks of one target: one per node, in node order. */
  function TasksOf(t: TargetCluster): (r: seq<Task>)
    ensures |r| == |t.nodeNames|
    ensures forall i | 0 <= i < |r| :: r[i] == Task(t.context, t.nodeNames[i])
  {
    NodeTasks(t.context, t.nodeNames)
  }

  function NodeTasks(context: string, names: seq<string>): (r: seq<Task>)
    ensures |r| == |names|
    ensures forall i | 0 <= i < |r| :: r[i] == Task(context, names[i])
  {
    if names == [] then [] else [Task(context, names[0])] + NodeTasks(context, names[1..])
  }

  /** The tasks a phase starts: one per node of every target. */
  function Tasks(targets: seq<TargetCluster>): (r: seq<Task>)
    ensures forall k :: k in r <==> exists i | 0 <= i < |targets| ::
      k.context == targets[i].context && k.node in targets[i].nodeNames
  {
    if targets == [] then []
    else
      var r := TasksOf(targets[0]) + Tasks(targets[1..]);
      assert forall k :: k in r <==> exists i | 0 <= i < |targets| ::
        k.context == targets[i].context && k.node in targets[i].nodeNames
      by {
      forall k ensures k in r <==> exists i | 0 <= i < |targets| ::
        k.context == targets[i].context && k.node in targets[i].nodeNames
      {
        if k in TasksOf(targets[0]) {
          var j :| 0 <= j < |TasksOf(targets[0])| && TasksOf(targets[0])[j] == k;
          assert k.node == targets[0].nodeNames[j];
        }
        if exists i | 0 <= i < |targets| :: k.context == targets[i].context && k.node in targets[i].nodeNames {
          var i :| 0 <= i < |targets| && k.context == targets[i].context && k.node in targets[i].nodeNames;
          if i == 0 {
            var j :| 0 <= j < |targets[0].nodeNames| && targets[0].nodeNames[j] == k.node;
            assert TasksOf(targets[0])[j] == k;
          } else {
            assert targets[1..][i - 1] == targets[i];
          }
        }
        if k in Tasks(targets[1..]) {
          var i :| 0 <= i < |targets[1..]| && k.context == targets[1..][i].context && k.node in targets[1..][i].nodeNames;
          assert targets[1..][i] == targets[i + 1];
        }
      }
      }
      r
  }

  /** `targetNodeCount`: the number of nodes over all targets, which is
      the number of tasks a phase starts and so the number of values it
      waits for. */
  function TargetNodeCount(targets: seq<TargetCluster>): (n: nat)
    ensures n == |Tasks(targets)|
  {
    if targets == [] then 0 else |targets[0].nodeNames| + TargetNodeCount(targets[1..])
  }

  /** What each task reports, in arrival order. */
  function Outcomes(arrival: seq<Task>, run: Task -> Result<()>): (r: seq<Option<Error>>)
    ensures |r| == |arrival|
    ensures forall i | 0 <= i < |arrival| :: r[i].None? <==> run(arrival[i]).Ok?
    ensures forall i | 0 <= i < |arrival| :: r[i].Some? ==> run(arrival[i]) == Err(r[i].value)
  {
    if arrival == [] then []
    else
      (if run(arrival[0]).Ok? then [None] else [Some(run(arrival[0]).error)])
      + Outcomes(arrival[1..], run)
  }

  /** The node phase of `BlockCluster` and `UnblockCluster`: every task
      runs; the phase waits for `targetNodeCount` values and returns the
      first error received. Whatever the arrival order, it succeeds exactly
      when every task succeeds, and an error it returns is some task's. */
  function ModifyNodes(targets: seq<TargetCluster>, arrival: seq<Task>, run: Task -> Result<()>): (r: Option<Error>)
    requires multiset(arrival) == multiset(Tasks(targets))
    ensures r.None? <==> forall t | t in Tasks(targets) :: run(t).Ok?
    ensures r.Some? ==> exists t | t in Tasks(targets) :: run(t) == Err(r.value)
  {
    var outcomes := Outcomes(arrival, run);
    ArrivalCoversTasks(targets, arrival);
    var r := FirstError(outcomes, TargetNodeCount(targets));
    assert r.Some? ==> exists t | t in Tasks(targets) :: run(t) == Err(r.value) by {
      if r.Some? {
        var i :| 0 <= i < |arrival| && outcomes[i] == r;
        assert arrival[i] in Tasks(targets);
      }
    }
    assert r.None? ==> forall t | t in Tasks(targets) :: run(t).Ok? by {
      if r.None? {
        forall t | t in Tasks(targets) ensures run(t).Ok? {
          var i :| 0 <= i < |arrival| && arrival[i] == t;
        }
      }
    }
    r
  }

  /** An arrival order of the tasks holds each task and has one entry per
      node of the targets. */
  lemma ArrivalCoversTasks(targets: seq<TargetCluster>, arrival: seq<Task>)
    requires multiset(arrival) == multiset(Tasks(targets))
    ensures |arrival| == TargetNodeCount(targets)
    ensures forall t :: t in arrival <==> t in Tasks(targets)
  {
    assert |multiset(arrival)| == |multiset(Tasks(targets))|;
    forall t ensures t in arrival <==> t in Tasks(targets) {
      assert t in arrival <==> t in multiset(arrival);
      assert t in Tasks(targets) <==> t in multiset(Tasks(targets));
    }
  }

  // ---------------------------------------------------------------------
  // inspectClusters

  /** A target before inspection: its context, and what listing its nodes
      returns. */
  datatype TargetSetup = TargetSetup(context: string, listing: Result<seq<Node>>)

  /** What a command inspects: the blocked context, its node listing, the
      kubeconfig and the URL and DNS oracles its API-server lookup uses,
      and the targets. */
  datatype Setup = Setup(
    blocked: string,
    blockedListing: Result<seq<Node>>,
    config: Kubeconfig,
    parseURL: string -> Option<Url>,
    lookupIP: string -> Result<seq<string>>,
    targets: seq<TargetSetup>)

  function ErrorOf<T>(r: Result<T>): Option<Error> {
    if r.Ok? then None else Some(r.error)
  }

  /** `Cluster.Inspect()` of the setup's blocked cluster. */
  function BlockedOutcome(s: Setup): Result<BlockedCluster> {
    InspectBlocked(s.blocked, s.blockedListing, s.config, s.parseURL, s.lookupIP)
  }

  /** `target.Inspect()`. */
  function TargetOutcome(t: TargetSetup): Result<TargetCluster> {
    InspectTarget(t.context, t.listing)
  }

  function TargetErrors(ts: seq<TargetSetup>): (r: seq<Option<Error>>)
    ensures |r| == |ts|
    ensures forall i | 0 <= i < |ts| :: r[i] == ErrorOf(TargetOutcome(ts[i]))
  {
    if ts == [] then [] else [ErrorOf(TargetOutcome(ts[0]))] + TargetErrors(ts[1..])
  }

  /** The values the inspection goroutines send, one per cluster: the
      blocked cluster's, then each target's. */
  function InspectionErrors(s: Setup): (r: seq<Option<Error>>)
    ensures |r| == |s.targets| + 1
    ensures r[0] == ErrorOf(BlockedOutcome(s))
    ensures forall i | 0 <= i < |s.targets| :: r[i + 1] == ErrorOf(TargetOutcome(s.targets[i]))
  {
    [ErrorOf(BlockedOutcome(s))] + TargetErrors(s.targets)
  }

  /** Every cluster of the setup inspects successfully. */
  predicate InspectionOk(s: Setup) {
    BlockedOutcome(s).Ok? && forall i | 0 <= i < |s.targets| :: TargetOutcome(s.targets[i]).Ok?
  }

  function InspectedTargets(ts: seq<TargetSetup>): (r: seq<TargetCluster>)
    requires forall i | 0 <= i < |ts| :: TargetOutcome(ts[i]).Ok?
    ensures |r| == |ts|
    ensures forall i | 0 <= i < |ts| :: r[i] == TargetOutcome(ts[i]).value
  {
    if ts == [] then [] else [TargetOutcome(ts[0]).value] + InspectedTargets(ts[1..])
  }

  /** The clusters after a successful inspection: `Inspect` fills the
      blocked cluster's addresses and each target's node names. */
  function Inspected(s: Setup): (c: Command)
    requires InspectionOk(s)
    ensures c.blocked == BlockedOutcome(s).value
    ensures |c.targets| == |s.targets|
    ensures forall i | 0 <= i < |s.targets| :: c.targets[i] == TargetOutcome(s.targets[i]).value
  {
    Command(BlockedOutcome(s).value, InspectedTargets(s.targets))
  }

  /** After a successful inspection every target is the setup's context
      with at least one node, and there is at least one address to block. */
  lemma InspectedReady(s: Setup)
    requires InspectionOk(s)
    ensures Inspected(s).blocked.context == s.blocked
    ensures forall i | 0 <= i < |s.targets| ::
      Inspected(s).targets[i].context == s.targets[i].context && Inspected(s).targets[i].nodeNames != []
    ensures AllAddresses(Inspected(s).blocked) != []
  {
    var b := Inspected(s).blocked;
    assert b.nodeAddresses[0] in Elems(AllAddresses(b));
  }

  /** The values received are those sent, in some order. */
  lemma FinishedAreSent(s: Setup, finished: seq<Option<Error>>)
    requires multiset(finished) == multiset(InspectionErrors(s))
    ensures |finished| == |s.targets| + 1
    ensures forall x :: x in finished <==> x in InspectionErrors(s)
  {
    var errors := InspectionErrors(s);
    assert |multiset(finished)| == |multiset(errors)|;
    forall x ensures x in finished <==> x in errors {
      assert x in finished <==> x in multiset(finished);
      assert x in errors <==> x in multiset(errors);
    }
  }

  /** Inspection succeeds exactly when no cluster sends an error. */
  lemma InspectionOkIff(s: Setup)
    ensures InspectionOk(s) <==> None in InspectionErrors(s) && forall x | x in InspectionErrors(s) :: x.None?
  {
    var errors := InspectionErrors(s);
    assert errors[0] in errors;
    if forall x | x in errors :: x.None? {
      forall i | 0 <= i < |s.targets| ensures TargetOutcome(s.targets[i]).Ok? {
        assert errors[i + 1] in errors;
      }
    }
  }

  /** An error sent is the error of some cluster's inspection. */
  lemma SentErrorSource(s: Setup, e: Error)
    requires Some(e) in InspectionErrors(s)
    ensures BlockedOutcome(s) == Err(e) || exists i | 0 <= i < |s.targets| :: TargetOutcome(s.targets[i]) == Err(e)
  {
    var errors := InspectionErrors(s);
    var k :| 0 <= k < |errors| && errors[k] == Some(e);
    if k > 0 {
      assert TargetOutcome(s.targets[k - 1]) == Err(e);
    }
  }

  /** `inspectClusters`: the blocked cluster and every target are
      inspected concurrently; `finished` holds their outcomes in the order
      they finish, and the first error received is returned. It is nil
      exactly when every cluster inspects successfully; an error is the
      error of some cluster's inspection. */
  function InspectClusters(s: Setup, finished: seq<Option<Error>>): (r: Option<Error>)
    requires multiset(finished) == multiset(InspectionErrors(s))
    ensures r.None? <==> InspectionOk(s)
    ensures r.Some? ==> (BlockedOutcome(s) == Err(r.value)
      || exists i | 0 <= i < |s.targets| :: TargetOutcome(s.targets[i]) == Err(r.value))
  {
    FinishedAreSent(s, finished);
    InspectionOkIff(s);
    var r := FirstError(finished, |s.targets| + 1);
    assert r.Some? ==> r in finished by {
      if r.Some? {
        var i :| 0 <= i < |finished| && finished[i] == r;
      }
    }
    assert r.None? ==> None in finished by {
      if r.None? {
        assert finished[0] in finished;
      }
    }
    if r.Some? then SentErrorSource(s, r.value); r else r
  }

  /** `BlockCluster`: inspection, then the add script on every node of
      every target, listing the blocked cluster's addresses. An inspection
      error ends the command before any node is touched. The arrival order
      of the node tasks matters only once inspection succeeded. */
  function BlockCluster(
    s: Setup, finished: seq<Option<Error>>, arrival: seq<Task>,
    exec: Task -> (string -> Result<string>)): (r: Option<Error>)
    requires multiset(finished) == multiset(InspectionErrors(s))
    requires InspectionOk(s) ==> multiset(arrival) == multiset(Tasks(Inspected(s).targets))
    ensures !InspectionOk(s) ==> r == InspectClusters(s, finished)
    ensures r.None? <==> (InspectionOk(s)
      && forall t | t in Tasks(Inspected(s).targets) :: exec(t)(AddScript(AllAddresses(Inspected(s).blocked))).Ok?)
    ensures InspectionOk(s) && r.Some? ==> exists t | t in Tasks(Inspected(s).targets) ::
      exec(t)(AddScript(AllAddresses(Inspected(s).blocked))) == Err(r.value)
  {
    match InspectClusters(s, finished)
    case Some(e) => Some(e)
    case None =>
      var c := Inspected(s);
      var addrs := AllAddresses(c.blocked);
      var run := t => AddBlackholeRoutes(addrs, exec(t));
      var r := ModifyNodes(c.targets, arrival, run);
      assert r.Some? ==> exists t | t in Tasks(c.targets) :: exec(t)(AddScript(addrs)) == Err(r.value) by {
        if r.Some? {
          var t :| t in Tasks(c.targets) && run(t) == Err(r.value);
          assert exec(t)(AddScript(addrs)) == Err(r.value);
        }
      }
      r
  }

  /** `UnblockCluster`: inspection, then the delete procedure on every node
      of every target. */
  function UnblockCluster(
    s: Setup, finished: seq<Option<Error>>, arrival: seq<Task>,
    exec: Task -> (string -> Result<string>)): (r: Option<Error>)
    requires multiset(finished) == multiset(InspectionErrors(s))
    requires InspectionOk(s) ==> multiset(arrival) == multiset(Tasks(Inspected(s).targets))
    ensures !InspectionOk(s) ==> r == InspectClusters(s, finished)
    ensures r.None? <==> (InspectionOk(s)
      && forall t | t in Tasks(Inspected(s).targets) ::
        DeleteBlackholeRoutes(t.context, t.node, AllAddresses(Inspected(s).blocked), exec(t)).Ok?)
    ensures InspectionOk(s) && r.Some? ==> exists t | t in Tasks(Inspected(s).targets) ::
      DeleteBlackholeRoutes(t.context, t.node, AllAddresses(Inspected(s).blocked), exec(t)) == Err(r.value)
  {
    match InspectClusters(s, finished)
    case Some(e) => Some(e)
    case None =>
      var c := Inspected(s);
      var addrs := AllAddresses(c.blocked);
      var run := (t: Task) => DeleteBlackholeRoutes(t.context, t.node, addrs, exec(t));
      var r := ModifyNodes(c.targets, arrival, run);
      assert r.Some? ==> exists t | t in Tasks(c.targets) ::
        DeleteBlackholeRoutes(t.context, t.node, addrs, exec(t)) == Err(r.value) by {
        if r.Some? {
          var t :| t in Tasks(c.targets) && run(t) == Err(r.value);
        }
      }
      r
  }

  // ---------------------------------------------------------------------
  // collectResults

  /** `Set.HasAll`: every address is a route; true of no addresses. */
  function HasAll(routes: set<string>, addrs: seq<string>): (r: bool)
    ensures r <==> Elems(addrs) <= routes
  {
    if addrs == [] then true
    else
      ElemsCons(addrs);
      addrs[0] in routes && HasAll(routes, addrs[1..])
  }

  /** `Set.HasAny`: some address is a route; false of no addresses. */
  function HasAny(routes: set<string>, addrs: seq<string>): (r: bool)
    ensures r <==> !(Elems(addrs) !! routes)
  {
    if addrs == [] then false
    else
      ElemsCons(addrs);
      addrs[0] in routes || HasAny(routes, addrs[1..])
  }

  /** The status of a node holding `routes`, for the blocked cluster's
      addresses `addrs`. The three cases exclude each other and cover every
      table. */
  function Classify(routes: set<string>, addrs: seq<string>): (s: Status)
    ensures s == Blocked <==> Elems(addrs) <= routes
    ensures s == PartlyBlocked <==> !(Elems(addrs) <= routes) && !(Elems(addrs) !! routes)
    ensures s == Unblocked <==> !(Elems(addrs) <= routes) && Elems(addrs) !! routes
  {
    if HasAll(routes, addrs) then Blocked
    else if HasAny(routes, addrs) then PartlyBlocked
    else Unblocked
  }

  /** With no addresses to block, every node counts as blocked. */
  lemma ClassifyNoAddresses(routes: set<string>)
    ensures Classify(routes, []) == Blocked
  {
    var none: seq<string> := [];
    assert Elems(none) == {};
  }

  function StatusOf(addrs: seq<string>, r: NodeResult): Status {
    Classify(r.routes, addrs)
  }

  /** The status map before any result arrived: every target valid, no
      node known. */
  function InitialReport(targets: seq<string>): (m: map<string, ClusterStatus>)
    ensures m.Keys == Elems(targets)
    ensures forall c | c in m :: m[c] == ClusterStatus(true, map[])
  {
    map c | c in Elems(targets) :: ClusterStatus(true, map[])
  }

  /** One step of the loop: record the node's status; the target stops
      being valid when the node is partly blocked or its status differs
      from the one recorded earlier for the same node. */
  function Record(st: ClusterStatus, node: string, s: Status): ClusterStatus {
    var valid := st.valid && s != PartlyBlocked && !(node in st.nodes && st.nodes[node] != s);
    ClusterStatus(valid, st.nodes[node := s])
  }

  /** Every result names one of the targets (a result for another context
      would dereference a missing map entry). */
  predicate ForTargets(targets: seq<string>, results: seq<NodeResult>) {
    forall i | 0 <= i < |results| :: results[i].context in targets
  }

  /** The loop of `collectResults` after the first `k` results. */
  function CollectUpTo(targets: seq<string>, addrs: seq<string>, results: seq<NodeResult>, k: nat): (r: Result<map<string, ClusterStatus>>)
    requires k <= |results| && ForTargets(targets, results)
    ensures r.Err? <==> exists i | 0 <= i < k :: results[i].err.Some?
    ensures r.Err? ==> exists i | 0 <= i < k ::
      results[i].err == Some(r.error) && forall j | 0 <= j < i :: results[j].err.None?
    ensures r.Ok? ==> r.value.Keys == Elems(targets)
  {
    if k == 0 then Ok(InitialReport(targets))
    else match CollectUpTo(targets, addrs, results, k - 1)
      case Err(e) => Err(e)
      case Ok(m) =>
        var res := results[k - 1];
        if res.err.Some? then Err(res.err.value)
        else
          assert res.context in Elems(targets);
          Ok(m[res.context := Record(m[res.context], res.node, StatusOf(addrs, res))])
  }

  /** `collectResults`: waits for one result per task; the first result
      carrying an error ends the collection with that error. */
  function Collect(targets: seq<string>, addrs: seq<string>, results: seq<NodeResult>): (r: Result<map<string, ClusterStatus>>)
    requires ForTargets(targets, results)
    ensures r.Err? <==> exists i | 0 <= i < |results| :: results[i].err.Some?
    ensures r.Err? ==> exists i | 0 <= i < |results| ::
      results[i].err == Some(r.error) && forall j | 0 <= j < i :: results[j].err.None?
    ensures r.Ok? ==> r.value.Keys == Elems(targets)
  {
    CollectUpTo(targets, addrs, results, |results|)
  }

  /** Among the first `k` results, no node of target `c` is partly blocked. */
  predicate NoPartly(addrs: seq<string>, results: seq<NodeResult>, k: nat, c: string)
    requires k <= |results|
  {
    forall i | 0 <= i < k && results[i].context == c :: StatusOf(addrs, results[i]) != PartlyBlocked
  }

  /** Among the first `k` results, every node of target `c` reported the
      same status each time. */
  predicate Consistent(addrs: seq<string>, results: seq<NodeResult>, k: nat, c: string)
    requires k <= |results|
  {
    forall i, j | 0 <= i < j < k && results[i].context == c && results[j].context == c
      && results[i].node == results[j].node :: StatusOf(addrs, results[i]) == StatusOf(addrs, results[j])
  }

  /** Among the first `k` results, some result is for node `n` of target `c`. */
  predicate Reported(results: seq<NodeResult>, k: nat, c: string, n: string)
    requires k <= |results|
  {
    exists i | 0 <= i < k :: results[i].context == c && results[i].node == n
  }

  /** Among the first `k` results, the last one for node `n` of target `c`
      has status `s`. */
  predicate LastIs(addrs: seq<string>, results: seq<NodeResult>, k: nat, c: string, n: string, s: Status)
    requires k <= |results|
  {
    exists i | 0 <= i < k :: results[i].context == c && results[i].node == n
      && StatusOf(addrs, results[i]) == s
      && forall j | i < j < k :: !(results[j].context == c && results[j].node == n)
  }

  /** What the collected map means: a target is valid exactly when none of
      its nodes is partly blocked and no node changed status between its
      results; its node map holds exactly the reported nodes, each with the
      status of its last result. */
  lemma {:induction false} CollectInvariant(targets: seq<string>, addrs: seq<string>, results: seq<NodeResult>, k: nat)
    requires k <= |results| && ForTargets(targets, results)
    requires CollectUpTo(targets, addrs, results, k).Ok?
    ensures var m := CollectUpTo(targets, addrs, results, k).value;
      forall c | c in m ::
        (m[c].valid <==> NoPartly(addrs, results, k, c) && Consistent(addrs, results, k, c))
        && (forall n :: n in m[c].nodes <==> Reported(results, k, c, n))
        && (forall n | n in m[c].nodes :: LastIs(addrs, results, k, c, n, m[c].nodes[n]))
  {
    if k > 0 {
      CollectInvariant(targets, addrs, results, k - 1);
      var m0 := CollectUpTo(targets, addrs, results, k - 1).value;
      var m := CollectUpTo(targets, addrs, results, k).value;
      var res := results[k - 1];
      forall c | c in m
        ensures (m[c].valid <==> NoPartly(addrs, results, k, c) && Consistent(addrs, results, k, c))
        ensures forall n :: n in m[c].nodes <==> Reported(results, k, c, n)
        ensures forall n | n in m[c].nodes :: LastIs(addrs, results, k, c, n, m[c].nodes[n])
      {
        if c == res.context {
          RecordStep(addrs, results, k, c, m0[c], m[c]);
        } else {
          UnrelatedStep(addrs, results, k, c, m0[c]);
        }
      }
    }
  }

  /** A result for another target leaves target `c`'s facts as they were. */
  lemma UnrelatedStep(addrs: seq<string>, results: seq<NodeResult>, k: nat, c: string, st: ClusterStatus)
    requires 0 < k <= |results| && results[k - 1].context != c
    requires st.valid <==> NoPartly(addrs, results, k - 1, c) && Consistent(addrs, results, k - 1, c)
    requires forall n :: n in st.nodes <==> Reported(results, k - 1, c, n)
    requires forall n | n in st.nodes :: LastIs(addrs, results, k - 1, c, n, st.nodes[n])
    ensures st.valid <==> NoPartly(addrs, results, k, c) && Consistent(addrs, results, k, c)
    ensures forall n :: n in st.nodes <==> Reported(results, k, c, n)
    ensures forall n | n in st.nodes :: LastIs(addrs, results, k, c, n, st.nodes[n])
  {
    forall n | n in st.nodes ensures LastIs(addrs, results, k, c, n, st.nodes[n]) {
      var i :| 0 <= i < k - 1 && results[i].context == c && results[i].node == n
        && StatusOf(addrs, results[i]) == st.nodes[n]
        && forall j | i < j < k - 1 :: !(results[j].context == c && results[j].node == n);
      assert forall j | i < j < k :: !(results[j].context == c && results[j].node == n);
    }
    forall n | Reported(results, k, c, n) ensures Reported(results, k - 1, c, n) {
      var i :| 0 <= i < k && results[i].context == c && results[i].node == n;
      assert i < k - 1;
    }
  }

  /** The result for target `c` updates its facts as `Record` does. */
  lemma RecordStep(addrs: seq<string>, results: seq<NodeResult>, k: nat, c: string, st: ClusterStatus, st1: ClusterStatus)
    requires 0 < k <= |results| && results[k - 1].context == c
    requires st1 == Record(st, results[k - 1].node, StatusOf(addrs, results[k - 1]))
    requires st.valid <==> NoPartly(addrs, results, k - 1, c) && Consistent(addrs, results, k - 1, c)
    requires forall n :: n in st.nodes <==> Reported(results, k - 1, c, n)
    requires forall n | n in st.nodes :: LastIs(addrs, results, k - 1, c, n, st.nodes[n])
    ensures st1.valid <==> NoPartly(addrs, results, k, c) && Consistent(addrs, results, k, c)
    ensures forall n :: n in st1.nodes <==> Reported(results, k, c, n)
    ensures forall n | n in st1.nodes :: LastIs(addrs, results, k, c, n, st1.nodes[n])
  {
    var res := results[k - 1];
    var s := StatusOf(addrs, res);
    var node := res.node;
    // the node map
    forall n ensures n in st1.nodes <==> Reported(results, k, c, n) {
      if n != node && Reported(results, k, c, n) {
        var i :| 0 <= i < k && results[i].context == c && results[i].node == n;
        assert i < k - 1;
      }
    }
    forall n | n in st1.nodes ensures LastIs(addrs, results, k, c, n, st1.nodes[n]) {
      if n == node {
        assert results[k - 1].context == c && results[k - 1].node == n;
      } else {
        var i :| 0 <= i < k - 1 && results[i].context == c && results[i].node == n
          && StatusOf(addrs, results[i]) == st.nodes[n]
          && forall j | i < j < k - 1 :: !(results[j].context == c && results[j].node == n);
        assert forall j | i < j < k :: !(results[j].context == c && results[j].node == n);
      }
    }
    // the valid flag
    if st1.valid {
      assert NoPartly(addrs, results, k, c);
      forall i, j | 0 <= i < j < k && results[i].context == c && results[j].context == c
        && results[i].node == results[j].node
        ensures StatusOf(addrs, results[i]) == StatusOf(addrs, results[j])
      {
        if j == k - 1 {
          assert Reported(results, k - 1, c, node);
          var l :| 0 <= l < k - 1 && results[l].context == c && results[l].node == node
            && StatusOf(addrs, results[l]) == st.nodes[node]
            && forall j' | l < j' < k - 1 :: !(results[j'].context == c && results[j'].node == node);
          assert i == l || i < l;
        }
      }
    } else if !st.valid {
      if !NoPartly(addrs, results, k - 1, c) {
        var i :| 0 <= i < k - 1 && results[i].context == c && StatusOf(addrs, results[i]) == PartlyBlocked;
        assert !NoPartly(addrs, results, k, c);
      } else {
        var i, j :| 0 <= i < j < k - 1 && results[i].context == c && results[j].context == c
          && results[i].node == results[j].node && StatusOf(addrs, results[i]) != StatusOf(addrs, results[j]);
        assert !Consistent(addrs, results, k, c);
      }
    } else if s == PartlyBlocked {
      assert !NoPartly(addrs, results, k, c);
    } else {
      assert node in st.nodes && st.nodes[node] != s;
      var l :| 0 <= l < k - 1 && results[l].context == c && results[l].node == node
        && StatusOf(addrs, results[l]) == st.nodes[node];
      assert !Consistent(addrs, results, k, c);
    }
  }

  /** The meaning of `collectResults`' map, for every target. */
  lemma CollectMeaning(targets: seq<string>, addrs: seq<string>, results: seq<NodeResult>, c: string)
    requires ForTargets(targets, results)
    requires Collect(targets, addrs, results).Ok? && c in targets
    ensures var st := Collect(targets, addrs, results).value[c];
      (st.valid <==> NoPartly(addrs, results, |results|, c) && Consistent(addrs, results, |results|, c))
      && (forall n :: n in st.nodes <==> Reported(results, |results|, c, n))
      && (forall n | n in st.nodes :: LastIs(addrs, results, |results|, c, n, st.nodes[n]))
  {
    CollectInvariant(targets, addrs, results, |results|);
  }

  /** Each (target, node) pair reports at most once. */
  predicate DistinctNodes(results: seq<NodeResult>) {
    forall i, j | 0 <= i < j < |results| ::
      !(results[i].context == results[j].context && results[i].node == results[j].node)
  }

  /** With one result per node, as the status phase produces, the
      comparison with a node's earlier status never fires: a target is
      valid exactly when none of its nodes is partly blocked. In particular
      a target with one blocked and one unblocked node stays valid. */
  lemma ValidIffNoPartlyBlocked(targets: seq<string>, addrs: seq<string>, results: seq<NodeResult>, c: string)
    requires ForTargets(targets, results) && DistinctNodes(results)
    requires Collect(targets, addrs, results).Ok? && c in targets
    ensures Collect(targets, addrs, results).value[c].valid
        <==> forall i | 0 <= i < |results| && results[i].context == c :: StatusOf(addrs, results[i]) != PartlyBlocked
  {
    CollectMeaning(targets, addrs, results, c);
  }

  /** One node blocking every address and another blocking none leave
      their target valid: each node is compared only with its own earlier
      status. */
  lemma MixedTargetStaysValid(c: string, n1: string, n2: string, a: string)
    requires n1 != n2
    ensures Collect([c], [a], [NodeResult(c, n1, {a}, None), NodeResult(c, n2, {}, None)])
         == Ok(map[c := ClusterStatus(true, map[n1 := Blocked, n2 := Unblocked])])
  {
    var results := [NodeResult(c, n1, {a}, None), NodeResult(c, n2, {}, None)];
    assert Classify({a}, [a]) == Blocked;
    assert Classify({}, [a]) == Unblocked;
    var m0 := map[c := ClusterStatus(true, map[])];
    assert Elems([c]) == {c};
    assert InitialReport([c]) == m0;
    assert CollectUpTo([c], [a], results, 0) == Ok(m0);
    var m1 := map[c := ClusterStatus(true, map[n1 := Blocked])];
    assert results[0].context == c && results[0].node == n1;
    assert StatusOf([a], results[0]) == Blocked;
    assert Record(m0[c], n1, Blocked) == ClusterStatus(true, map[n1 := Blocked]);
    assert m0[c := ClusterStatus(true, map[n1 := Blocked])] == m1;
    assert CollectUpTo([c], [a], results, 1) == Ok(m1);
    assert StatusOf([a], results[1]) == Unblocked;
    assert n2 !in m1[c].nodes;
    assert Record(m1[c], n2, Unblocked) == ClusterStatus(true, map[n1 := Blocked, n2 := Unblocked]);
    assert m1[c := ClusterStatus(true, map[n1 := Blocked, n2 := Unblocked])]
        == map[c := ClusterStatus(true, map[n1 := Blocked, n2 := Unblocked])];
    assert CollectUpTo([c], [a], results, 2) == Ok(map[c := ClusterStatus(true, map[n1 := Blocked, n2 := Unblocked])]);
  }

  /** A target for which no result arrived stays valid with no nodes. */
  lemma SilentTargetStaysValid(targets: seq<string>, addrs: seq<string>, results: seq<NodeResult>, c: string)
    requires ForTargets(targets, results)
    requires Collect(targets, addrs, results).Ok? && c in targets
    requires forall i | 0 <= i < |results| :: results[i].context != c
    ensures Collect(targets, addrs, results).value[c] == ClusterStatus(true, map[])
  {
    CollectMeaning(targets, addrs, results, c);
    var st := Collect(targets, addrs, results).value[c];
    assert st.nodes.Keys == {};
  }

  /** A node reported blocked and later unblocked makes its target
      invalid: the only case the status comparison catches. */
  lemma ChangedStatusInvalidates(targets: seq<string>, addrs: seq<string>, results: seq<NodeResult>, i: nat, j: nat)
    requires ForTargets(targets, results)
    requires Collect(targets, addrs, results).Ok?
    requires i < j < |results| && results[i].context == results[j].context && results[i].node == results[j].node
    requires StatusOf(addrs, results[i]) != StatusOf(addrs, results[j])
    ensures !Collect(targets, addrs, results).value[results[i].context].valid
  {
    CollectMeaning(targets, addrs, results, results[i].context);
  }

  // ---------------------------------------------------------------------
  // ClusterStatus

  function Contexts(targets: seq<TargetCluster>): (r: seq<string>)
    ensures |r| == |targets|
    ensures forall i | 0 <= i < |targets| :: r[i] == targets[i].context
  {
    if targets == [] then [] else [targets[0].context] + Contexts(targets[1..])
  }

  /** The result a status task sends for its node, given the output of the
      query script on that node. */
  function QueryNode(t: Task, output: Result<string>): (r: NodeResult)
    ensures r.context == t.context && r.node == t.node
    ensures r.err.None? <==> FindBlackholeRoutes(t.context, t.node, output).Ok?
    ensures r.err.None? ==> r.routes == FindBlackholeRoutes(t.context, t.node, output).value
    ensures r.err.Some? ==> r.err.value == FindBlackholeRoutes(t.context, t.node, output).error
  {
    match FindBlackholeRoutes(t.context, t.node, output)
    case Ok(routes) => NodeResult(t.context, t.node, routes, None)
    case Err(e) => NodeResult(t.context, t.node, {}, Some(e))
  }

  function QueryAll(arrival: seq<Task>, query: Task -> Result<string>): (r: seq<NodeResult>)
    ensures |r| == |arrival|
    ensures forall i | 0 <= i < |arrival| :: r[i] == QueryNode(arrival[i], query(arrival[i]))
    ensures forall i | 0 <= i < |arrival| :: arrival[i] == Task(r[i].context, r[i].node)
  {
    if arrival == [] then [] else [QueryNode(arrival[0], query(arrival[0]))] + QueryAll(arrival[1..], query)
  }

  lemma QueriesForTargets(targets: seq<TargetCluster>, arrival: seq<Task>, query: Task -> Result<string>)
    requires forall t :: t in arrival <==> t in Tasks(targets)
    ensures ForTargets(Contexts(targets), QueryAll(arrival, query))
  {
    var contexts := Contexts(targets);
    var results := QueryAll(arrival, query);
    forall i | 0 <= i < |results| ensures results[i].context in contexts {
      assert arrival[i] in Tasks(targets);
      var j :| 0 <= j < |targets| && arrival[i].context == targets[j].context
        && arrival[i].node in targets[j].nodeNames;
      assert contexts[j] == arrival[i].context;
    }
  }

  /** The status the node phase gives the node of task `t`, whose query
      printed `output`. */
  function TaskStatus(blocked: BlockedCluster, t: Task, output: Result<string>): Status
    requires FindBlackholeRoutes(t.context, t.node, output).Ok?
  {
    Classify(FindBlackholeRoutes(t.context, t.node, output).value, AllAddresses(blocked))
  }

  /** Some task, the first to arrive among those whose query does not
      parse, fails with `e`. */
  predicate FirstQueryError(arrival: seq<Task>, query: Task -> Result<string>, e: Error) {
    exists i | 0 <= i < |arrival| ::
      FindBlackholeRoutes(arrival[i].context, arrival[i].node, query(arrival[i])) == Err(e)
      && forall j | 0 <= j < i :: FindBlackholeRoutes(arrival[j].context, arrival[j].node, query(arrival[j])).Ok?
  }

  /** The node phase of `ClusterStatus`: the route query on every node of
      every target, collected in arrival order against the blocked
      cluster's addresses. It succeeds exactly when every node's query
      parses, with one entry per target; otherwise its error is the parse
      error of the first failing task to arrive. */
  function StatusOfNodes(c: Command, arrival: seq<Task>, query: Task -> Result<string>): (r: Result<map<string, ClusterStatus>>)
    requires multiset(arrival) == multiset(Tasks(c.targets))
    ensures r.Ok? <==> forall t | t in Tasks(c.targets) :: FindBlackholeRoutes(t.context, t.node, query(t)).Ok?
    ensures r.Ok? ==> r.value.Keys == Elems(Contexts(c.targets))
    ensures r.Err? ==> FirstQueryError(arrival, query, r.error)
  {
    ArrivalCoversTasks(c.targets, arrival);
    QueriesForTargets(c.targets, arrival, query);
    QueriesCollected(c, arrival, query);
    QueryErrorCollected(Contexts(c.targets), AllAddresses(c.blocked), arrival, query);
    Collect(Contexts(c.targets), AllAddresses(c.blocked), QueryAll(arrival, query))
  }

  /** The collection fails exactly when some task's query does not parse. */
  lemma QueriesCollected(c: Command, arrival: seq<Task>, query: Task -> Result<string>)
    requires multiset(arrival) == multiset(Tasks(c.targets))
    requires ForTargets(Contexts(c.targets), QueryAll(arrival, query))
    ensures Collect(Contexts(c.targets), AllAddresses(c.blocked), QueryAll(arrival, query)).Ok?
        <==> forall t | t in Tasks(c.targets) :: FindBlackholeRoutes(t.context, t.node, query(t)).Ok?
  {
    var results := QueryAll(arrival, query);
    ArrivalCoversTasks(c.targets, arrival);
    if Collect(Contexts(c.targets), AllAddresses(c.blocked), results).Ok? {
      forall t | t in Tasks(c.targets) ensures FindBlackholeRoutes(t.context, t.node, query(t)).Ok? {
        var i :| 0 <= i < |arrival| && arrival[i] == t;
        assert results[i].err.None?;
      }
    } else {
      var i :| 0 <= i < |results| && results[i].err.Some?;
      assert arrival[i] in Tasks(c.targets);
    }
  }

  /** A failed collection carries the error of the first failing query. */
  lemma QueryErrorCollected(targets: seq<string>, addrs: seq<string>, arrival: seq<Task>, query: Task -> Result<string>)
    requires ForTargets(targets, QueryAll(arrival, query))
    ensures var r := Collect(targets, addrs, QueryAll(arrival, query));
      r.Err? ==> FirstQueryError(arrival, query, r.error)
  {
    var results := QueryAll(arrival, query);
    var r := Collect(targets, addrs, results);
    if r.Err? {
      var i :| 0 <= i < |results| && results[i].err == Some(r.error)
        && forall j | 0 <= j < i :: results[j].err.None?;
      forall j | 0 <= j < i
        ensures FindBlackholeRoutes(arrival[j].context, arrival[j].node, query(arrival[j])).Ok?
      {
        assert results[j].err.None?;
      }
      assert FindBlackholeRoutes(arrival[i].context, arrival[i].node, query(arrival[i])) == Err(r.error);
    }
  }

  /** Every node of every target appears in its target's map with the
      status its routes give. */
  lemma StatusOfNodesNode(c: Command, arrival: seq<Task>, query: Task -> Result<string>, t: Task)
    requires multiset(arrival) == multiset(Tasks(c.targets))
    requires StatusOfNodes(c, arrival, query).Ok? && t in Tasks(c.targets)
    ensures var m := StatusOfNodes(c, arrival, query).value;
      t.context in m && t.node in m[t.context].nodes
      && m[t.context].nodes[t.node] == TaskStatus(c.blocked, t, query(t))
  {
    var results := QueryAll(arrival, query);
    var contexts := Contexts(c.targets);
    var addrs := AllAddresses(c.blocked);
    ArrivalCoversTasks(c.targets, arrival);
    QueriesForTargets(c.targets, arrival, query);
    var i :| 0 <= i < |arrival| && arrival[i] == t;
    assert t.context in contexts;
    CollectMeaning(contexts, addrs, results, t.context);
    var st := Collect(contexts, addrs, results).value[t.context];
    assert Reported(results, |results|, t.context, t.node);
    var j :| 0 <= j < |results| && results[j].context == t.context && results[j].node == t.node
      && StatusOf(addrs, results[j]) == st.nodes[t.node];
    assert arrival[j] == t;
  }

  /** A target's map holds exactly its nodes, and the target is valid
      exactly when none of its nodes is partly blocked: a node queried
      twice reports the same routes both times, so the comparison with an
      earlier status never fires. */
  lemma StatusOfNodesTarget(c: Command, arrival: seq<Task>, query: Task -> Result<string>, x: string)
    requires multiset(arrival) == multiset(Tasks(c.targets))
    requires StatusOfNodes(c, arrival, query).Ok? && x in Contexts(c.targets)
    ensures var st := StatusOfNodes(c, arrival, query).value[x];
      (forall n :: n in st.nodes <==> Task(x, n) in Tasks(c.targets))
      && (st.valid <==> forall t | t in Tasks(c.targets) && t.context == x ::
            TaskStatus(c.blocked, t, query(t)) != PartlyBlocked)
  {
    var results := QueryAll(arrival, query);
    var contexts := Contexts(c.targets);
    var addrs := AllAddresses(c.blocked);
    ArrivalCoversTasks(c.targets, arrival);
    QueriesForTargets(c.targets, arrival, query);
    CollectMeaning(contexts, addrs, results, x);
    var st := Collect(contexts, addrs, results).value[x];
    forall n ensures n in st.nodes <==> Task(x, n) in Tasks(c.targets) {
      if Task(x, n) in Tasks(c.targets) {
        var i :| 0 <= i < |arrival| && arrival[i] == Task(x, n);
        assert Reported(results, |results|, x, n);
      }
      if n in st.nodes {
        var i :| 0 <= i < |results| && results[i].context == x && results[i].node == n;
        assert arrival[i] == Task(x, n);
      }
    }
    assert Consistent(addrs, results, |results|, x) by {
      forall i, j | 0 <= i < j < |results| && results[i].context == x && results[j].context == x
        && results[i].node == results[j].node
        ensures StatusOf(addrs, results[i]) == StatusOf(addrs, results[j])
      {
        assert arrival[i] == arrival[j];
      }
    }
    assert NoPartly(addrs, results, |results|, x) <==> forall t | t in Tasks(c.targets) && t.context == x ::
      TaskStatus(c.blocked, t, query(t)) != PartlyBlocked
    by {
      forall t | t in Tasks(c.targets) && t.context == x && NoPartly(addrs, results, |results|, x)
        ensures TaskStatus(c.blocked, t, query(t)) != PartlyBlocked
      {
        var i :| 0 <= i < |arrival| && arrival[i] == t;
      }
      if forall t | t in Tasks(c.targets) && t.context == x :: TaskStatus(c.blocked, t, query(t)) != PartlyBlocked {
        forall i | 0 <= i < |results| && results[i].context == x
          ensures StatusOf(addrs, results[i]) != PartlyBlocked
        {
          assert arrival[i] in Tasks(c.targets);
        }
      }
    }
  }

  /** `ClusterStatus`: inspection, then the node phase. An inspection
      error is returned as is. */
  function StatusPhase(
    s: Setup, finished: seq<Option<Error>>, arrival: seq<Task>,
    query: Task -> Result<string>): (r: Result<map<string, ClusterStatus>>)
    requires multiset(finished) == multiset(InspectionErrors(s))
    requires InspectionOk(s) ==> multiset(arrival) == multiset(Tasks(Inspected(s).targets))
    ensures !InspectionOk(s) ==> r == Err(InspectClusters(s, finished).value)
    ensures r.Ok? <==> (InspectionOk(s)
      && forall t | t in Tasks(Inspected(s).targets) :: FindBlackholeRoutes(t.context, t.node, query(t)).Ok?)
    ensures r.Ok? ==> r.value.Keys == Elems(Contexts(Inspected(s).targets))
    ensures InspectionOk(s) && r.Err? ==> exists t | t in Tasks(Inspected(s).targets) ::
      FindBlackholeRoutes(t.context, t.node, query(t)) == Err(r.error)
    ensures InspectionOk(s) && r.Ok? ==> r == StatusOfNodes(Inspected(s), arrival, query)
  {
    match InspectClusters(s, finished)
    case Some(e) => Err(e)
    case None =>
      var r := StatusOfNodes(Inspected(s), arrival, query);
      assert r.Err? ==> exists t | t in Tasks(Inspected(s).targets) ::
        FindBlackholeRoutes(t.context, t.node, query(t)) == Err(r.error)
      by {
        if r.Err? {
          ArrivalCoversTasks(Inspected(s).targets, arrival);
          var i :| 0 <= i < |arrival| &&
            FindBlackholeRoutes(arrival[i].context, arrival[i].node, query(arrival[i])) == Err(r.error)
            && forall j | 0 <= j < i :: FindBlackholeRoutes(arrival[j].context, arrival[j].node, query(arrival[j])).Ok?;
          assert arrival[i] in Tasks(Inspected(s).targets);
        }
      }
      r
  }
}

=== FILE: ordering.dfy ===
/** Go's `<` on strings and the sorted, de-duplicated listing that
    `sets.List` and `sort.Strings` produce.

    Go compares strings byte by byte. For valid UTF-8 text the byte order
    coincides with the order of code points, so the model compares the
    characters of a Dafny string directly. */
module Ordering {
  import opened Types

  /** Lexicographic order; a proper prefix comes first. */
  predicate Less(a: string, b: string)
    decreases |a|
  {
    if a == [] then b != []
    else if b == [] then false
    else if a[0] != b[0] then a[0] < b[0]
    else Less(a[1..], b[1..])
  }

  lemma {:induction false} LessIrreflexive(a: string)
    ensures !Less(a, a)
    decreases |a|
  {
    if a != [] {
      LessIrreflexive(a[1..]);
    }
  }

  lemma {:induction false} LessTransitive(a: string, b: string, c: string)
    requires Less(a, b) && Less(b, c)
    ensures Less(a, c)
    decreases |a|
  {
    if a != [] && a[0] == b[0] && b[0] == c[0] {
      LessTransitive(a[1..], b[1..], c[1..]);
    }
  }

  lemma {:induction false} LessTotal(a: string, b: string)
    requires a != b
    ensures Less(a, b) || Less(b, a)
    decreases |a|
  {
    if a != [] && b != [] && a[0] == b[0] {
      assert a == [a[0]] + a[1..] && b == [b[0]] + b[1..];
      LessTotal(a[1..], b[1..]);
    }
  }

  lemma LessAsymmetric(a: string, b: string)
    requires Less(a, b)
    ensures !Less(b, a)
  {
    if Less(b, a) {
      LessTransitive(a, b, a);
      LessIrreflexive(a);
    }
  }

  /** Strictly increasing: sorted and without duplicates. */
  predicate StrictlySorted(s: seq<string>) {
    forall i, j | 0 <= i < j < |s| :: Less(s[i], s[j])
  }

  lemma SortedPrepend(h: string, t: seq<string>)
    requires StrictlySorted(t)
    requires forall e | e in t :: Less(h, e)
    ensures StrictlySorted([h] + t)
  {
    var s := [h] + t;
    forall i, j | 0 <= i < j < |s| ensures Less(s[i], s[j]) {
      if i == 0 {
        assert s[j] == t[j - 1];
      } else {
        assert s[i] == t[i - 1] && s[j] == t[j - 1];
      }
    }
  }

  lemma SortedHeadIsLeast(s: seq<string>, e: string)
    requires StrictlySorted(s) && e in s
    ensures e == s[0] || Less(s[0], e)
  {
    var k :| 0 <= k < |s| && s[k] == e;
  }

  lemma SortedDistinct(s: seq<string>)
    requires StrictlySorted(s)
    ensures Distinct(s)
  {
    forall i, j | 0 <= i < j < |s| ensures s[i] != s[j] {
      LessIrreflexive(s[i]);
    }
  }

  /** Inserts `x` into a strictly sorted sequence, keeping it strictly
      sorted; an element already present is not repeated. */
  function Insert(s: seq<string>, x: string): (r: seq<string>)
    requires StrictlySorted(s)
    ensures StrictlySorted(r)
    ensures Elems(r) == Elems(s) + {x}
    decreases |s|
  {
    if s == [] then
      [x]
    else if x == s[0] then
      ElemsCons(s);
      s
    else if Less(x, s[0]) then
      assert forall e | e in s :: Less(x, e) by {
        forall e | e in s ensures Less(x, e) {
          SortedHeadIsLeast(s, e);
          if e != s[0] {
            LessTransitive(x, s[0], e);
          }
        }
      }
      SortedPrepend(x, s);
      ElemsAppend([x], s);
      [x] + s
    else
      var t := Insert(s[1..], x);
      LessTotal(x, s[0]);
      ElemsCons(s);
      assert forall e | e in t :: Less(s[0], e) by {
        forall e | e in t ensures Less(s[0], e) {
          assert e in Elems(t);
          if e != x {
            var k :| 0 <= k < |s[1..]| && s[1..][k] == e;
            assert s[k + 1] == e;
          }
        }
      }
      SortedPrepend(s[0], t);
      ElemsAppend([s[0]], t);
      [s[0]] + t
  }

  /** The sorted, de-duplicated listing of the elements of `s`. */
  function SortUnique(s: seq<string>): (r: seq<string>)
    ensures StrictlySorted(r)
    ensures Elems(r) == Elems(s)
    decreases |s|
  {
    if s == [] then []
    else
      ElemsCons(s);
      Insert(SortUnique(s[1..]), s[0])
  }

  /** A strictly sorted sequence has one element per position. */
  lemma SortedCard(s: seq<string>)
    requires StrictlySorted(s)
    ensures |Elems(s)| == |s|
  {
    SortedDistinct(s);
    DistinctIffCard(s);
  }

  lemma SortedTail(s: seq<string>)
    requires StrictlySorted(s) && s != []
    ensures StrictlySorted(s[1..])
    ensures Elems(s[1..]) == Elems(s) - {s[0]}
  {
    ElemsCons(s);
    if s[0] in s[1..] {
      var k :| 0 <= k < |s[1..]| && s[1..][k] == s[0];
      assert Less(s[0], s[k + 1]);
      LessIrreflexive(s[0]);
      assert false;
    }
  }

  /** A strictly sorted sequence is determined by its element set. */
  lemma {:induction false} SortedUnique(a: seq<string>, b: seq<string>)
    requires StrictlySorted(a) && StrictlySorted(b)
    requires Elems(a) == Elems(b)
    ensures a == b
    decreases |a|
  {
    SortedCard(a);
    SortedCard(b);
    if a != [] {
      assert a[0] in Elems(b) && b[0] in Elems(a);
      SortedHeadIsLeast(a, b[0]);
      SortedHeadIsLeast(b, a[0]);
      if a[0] != b[0] {
        LessAsymmetric(a[0], b[0]);
        assert false;
      }
      SortedTail(a);
      SortedTail(b);
      SortedUnique(a[1..], b[1..]);
      assert a == [a[0]] + a[1..] && b == [b[0]] + b[1..];
    }
  }
}

=== FILE: progress.dfy ===
/** The progress indicator (cmd/progress.go): a counter of finished tasks
    out of a number of tasks, and the fixed-width lines it draws.

    Drawing is not modelled as output: each operation reports whether it
    redraws the line, and the line text is given by pure functions. The
    Go counters are `uint` (64 bits); the model keeps them in that range. */
module ProgressBar {
  import opened Types

  const MaxUint: int := 0x1_0000_0000_0000_0000

  /** Go's 64-bit `uint`. */
  type Uint = x: int | 0 <= x < MaxUint

  const DefaultWidth := 80

  datatype Progress = Progress(description: string, tasks: Uint, done: Uint, width: int)

  /** The state after an operation, and whether the operation redrew the
      line. */
  datatype Step = Step(next: Progress, redrawn: bool)

  function Min(a: int, b: int): int {
    if a <= b then a else b
  }

  /** `NewProgress`: nothing done yet, 80 columns wide. */
  function NewProgress(description: string, tasks: Uint): (p: Progress)
    ensures p.done == 0 && p.width == DefaultWidth
    ensures p.description == description && p.tasks == tasks
  {
    Progress(description, tasks, 0, DefaultWidth)
  }

  /** `SetTasks`: changes only the number of tasks, and redraws only when
      it differs. */
  function SetTasks(p: Progress, tasks: Uint): (s: Step)
    ensures s.next == p.(tasks := tasks)
    ensures s.redrawn <==> p.tasks != tasks
  {
    if p.tasks != tasks then Step(p.(tasks := tasks), true) else Step(p, false)
  }

  /** `SetDescription`: changes only the description, and redraws only when
      it differs. */
  function SetDescription(p: Progress, description: string): (s: Step)
    ensures s.next == p.(description := description)
    ensures s.redrawn <==> p.description != description
  {
    if p.description != description then Step(p.(description := description), true) else Step(p, false)
  }

  /** Setting the same value twice redraws at most once. */
  lemma SetTwiceRedrawsOnce(p: Progress, tasks: Uint, description: string)
    ensures SetTasks(SetTasks(p, tasks).next, tasks) == Step(SetTasks(p, tasks).next, false)
    ensures SetDescription(SetDescription(p, description).next, description)
         == Step(SetDescription(p, description).next, false)
  {
  }

  /** `Add`: counts `completed` more tasks, never past the number of tasks;
      once every task is counted (and while there are no tasks, the
      indeterminate state) it does nothing. The sum is taken before the
      minimum, so it cannot wrap around. */
  function Add(p: Progress, completed: Uint): (s: Step)
    ensures s.next == p.(done := s.next.done)
    ensures s.redrawn <==> p.done < p.tasks
    ensures p.done <= s.next.done
    ensures p.done < p.tasks ==> s.next.done <= p.tasks
    ensures p.tasks <= p.done ==> s == Step(p, false)
    ensures p.done < p.tasks ==> (s.next.done == p.tasks <==> p.tasks <= p.done + completed)
    ensures p.done < p.tasks && p.done + completed < p.tasks ==> s.next.done == p.done + completed
  {
    if p.done < p.tasks then Step(p.(done := Min(p.done + completed, p.tasks)), true)
    else Step(p, false)
  }

  /** Two additions count as one addition of their sum. */
  lemma AddCompose(p: Progress, a: Uint, b: Uint)
    requires a + b < MaxUint
    ensures Add(Add(p, a).next, b).next == Add(p, a + b).next
  {
  }

  /** Counting one task `n` times. */
  function AddOnes(p: Progress, n: nat): Progress
    decreases n
  {
    if n == 0 then p else AddOnes(Add(p, 1).next, n - 1)
  }

  /** Each finished task counts one: after `n` of them the counter stands
      at `n` more, capped at the number of tasks. In a phase that finishes
      all of its `tasks` tasks, the counter ends at `tasks`. */
  lemma {:induction false} AddOnesCounts(p: Progress, n: nat)
    requires p.done <= p.tasks
    ensures AddOnes(p, n).done == Min(p.done + n, p.tasks)
    ensures AddOnes(p, n) == p.(done := AddOnes(p, n).done)
    decreases n
  {
    if n > 0 {
      AddOnesCounts(Add(p, 1).next, n - 1);
    }
  }

  /** A fresh bar counting one task at a time: after `k` finished tasks it
      shows `k` of them, never more than there are. */
  lemma FreshBarCounts(description: string, tasks: Uint, k: nat)
    ensures AddOnes(NewProgress(description, tasks), k).done == Min(k, tasks)
    ensures AddOnes(NewProgress(description, tasks), k).tasks == tasks
  {
    AddOnesCounts(NewProgress(description, tasks), k);
  }

  /** `Add` as the source writes it: `done + completed` is a 64-bit
      unsigned sum, which wraps around before the minimum is taken. */
  function AddAsWritten(p: Progress, completed: Uint): (s: Step)
    ensures s.next == p.(done := s.next.done)
    ensures s.redrawn <==> p.done < p.tasks
    ensures p.done < p.tasks ==> s.next.done <= p.tasks
    ensures p.tasks <= p.done ==> s == Step(p, false)
    ensures p.done < p.tasks ==> (s.next.done < p.done <==> MaxUint <= p.done + completed)
  {
    if p.done < p.tasks then Step(p.(done := Min((p.done + completed) % MaxUint, p.tasks)), true)
    else Step(p, false)
  }

  /** Without wrap-around the two agree. */
  lemma AddAsWrittenAgrees(p: Progress, completed: Uint)
    requires p.done + completed < MaxUint
    ensures AddAsWritten(p, completed) == Add(p, completed)
  {
  }

  /** With wrap-around the count goes backwards: one task of ten done, and
      2^64 - 1 more reported, leaves the counter at zero. */
  lemma AddAsWrittenGoesBack()
    ensures AddAsWritten(Progress("", 10, 1, DefaultWidth), MaxUint - 1).next.done == 0
    ensures Add(Progress("", 10, 1, DefaultWidth), MaxUint - 1).next.done == 10
  {
  }

  // ---------------------------------------------------------------------
  // The lines drawn

  const IndeterminateMark := "[ ---- ] "

  function Spaces(n: nat): (r: string)
    ensures |r| == n
    ensures forall k | 0 <= k < n :: r[k] == ' '
  {
    if n == 0 then [] else [' '] + Spaces(n - 1)
  }

  /** The line `update` draws while there are no tasks: the mark, the
      description, spaces up to the last column and a carriage return, so
      that it covers the previous line. The padding is a repetition count
      that Go's `strings.Repeat` rejects (a panic) when negative, which
      happens when the description is longer than `width - 10`: the model
      returns None then. */
  function IndeterminateLine(description: string, width: int): (r: Option<string>)
    ensures r.Some? <==> |description| <= width - 10
    ensures r.Some? ==> |r.value| == width
    ensures r.Some? ==> (r.value[..|IndeterminateMark|] == IndeterminateMark
      && r.value[|IndeterminateMark|..|IndeterminateMark| + |description|] == description
      && (forall k | |IndeterminateMark| + |description| <= k < width - 1 :: r.value[k] == ' ')
      && r.value[width - 1] == '\r')
  {
    var count := width - 1 - |description| - |IndeterminateMark|;
    if count < 0 then None
    else
      var line := IndeterminateMark + description + Spaces(count) + "\r";
      assert line[..|IndeterminateMark|] == IndeterminateMark;
      assert line[|IndeterminateMark|..|IndeterminateMark| + |description|] == description;
      Some(line)
  }

  /** The line `Clear` writes: spaces up to the last column, then a
      carriage return. `strings.Repeat` panics for a width below one. */
  function ClearLine(width: int): (r: Option<string>)
    ensures r.Some? <==> width >= 1
    ensures r.Some? ==> (|r.value| == width && r.value[width - 1] == '\r'
      && forall k | 0 <= k < width - 1 :: r.value[k] == ' ')
  {
    if width < 1 then None else Some(Spaces(width - 1) + "\r")
  }

  /** The clearing line is exactly as wide as a progress line, so it blanks
      all of it, and it can always be drawn when the progress line can. */
  lemma ClearCoversLine(description: string, width: int)
    requires IndeterminateLine(description, width).Some?
    ensures ClearLine(width).Some?
    ensures |ClearLine(width).value| == |IndeterminateLine(description, width).value|
  {
  }
}

=== FILE: routes.dfy ===
/** The remote route protocol (cmd/iproute.go): the script that installs
    blackhole routes, the script that removes the present ones, and the
    strict parser of `ip route show type blackhole` output.

    Running a script on a node (`execScript`, an `oc debug` session) is not
    modelled: its outcome is an input, or a function from script text to
    output. To state what the scripts do, the module also gives a small
    model of a node's blackhole table as a set of addresses, with the two
    `ip route` commands the scripts use: `replace` inserts (and is
    idempotent), `del` removes and fails on an absent route. */
module Routes {
  import opened Types
  import opened Text

  const ReplacePrefix := "ip route replace blackhole "
  const DeletePrefix := "ip route del blackhole "

  /** The query script: both address families are listed explicitly,
      because `ip route show` alone omits IPv6 routes. */
  const QueryScript := "\n\tip -4 route show type blackhole\n\tip -6 route show type blackhole\n\t"

  /** An address as the route table prints it: one white-space-free word. */
  predicate IsAddress(a: string) {
    IsWord(a)
  }

  predicate AllAreAddresses(addrs: seq<string>) {
    forall i | 0 <= i < |addrs| :: IsAddress(addrs[i])
  }

  // ---------------------------------------------------------------------
  // addBlackholeRoutes

  /** The script of `addBlackholeRoutes`: one `replace` line per address,
      in input order. */
  function AddScript(addrs: seq<string>): string {
    if addrs == [] then [] else ReplacePrefix + addrs[0] + "\n" + AddScript(addrs[1..])
  }

  function ReplaceLines(addrs: seq<string>): (r: seq<string>)
    ensures |r| == |addrs|
    ensures forall i | 0 <= i < |addrs| :: r[i] == ReplacePrefix + addrs[i]
  {
    if addrs == [] then [] else [ReplacePrefix + addrs[0]] + ReplaceLines(addrs[1..])
  }

  lemma {:induction false} AddScriptIsJoin(addrs: seq<string>)
    ensures AddScript(addrs) == JoinLines(ReplaceLines(addrs))
  {
    if addrs != [] {
      AddScriptIsJoin(addrs[1..]);
      assert ReplaceLines(addrs)[1..] == ReplaceLines(addrs[1..]);
    }
  }

  lemma PrefixedLine(p: string, a: string)
    requires IsAddress(a) && '\n' !in p
    ensures IsLine(p + a)
  {
    var l := p + a;
    assert l[|l| - 1] == a[|a| - 1];
    assert forall k | 0 <= k < |l| :: l[k] == (if k < |p| then p[k] else a[k - |p|]);
    assert !IsSpace(a[|a| - 1]);
  }

  /** The add script consists of exactly one `ip route replace blackhole`
      line per address, in the order of the addresses. */
  lemma AddScriptLines(addrs: seq<string>)
    requires AllAreAddresses(addrs)
    ensures Lines(AddScript(addrs)) == ReplaceLines(addrs)
  {
    AddScriptIsJoin(addrs);
    var ls := ReplaceLines(addrs);
    forall i | 0 <= i < |ls| ensures IsLine(ls[i]) {
      PrefixedLine(ReplacePrefix, addrs[i]);
    }
    LinesJoin(ls);
  }

  /** `addBlackholeRoutes`: runs the add script; only the run's failure
      matters, its output is ignored. */
  function AddBlackholeRoutes(addrs: seq<string>, exec: string -> Result<string>): (r: Result<()>)
    ensures r.Ok? <==> exec(AddScript(addrs)).Ok?
    ensures r.Err? ==> r.error == exec(AddScript(addrs)).error
  {
    match exec(AddScript(addrs))
    case Err(e) => Err(e)
    case Ok(_) => Ok(())
  }

  // ---------------------------------------------------------------------
  // deleteBlackholeRoutes

  /** The requested addresses that are present, in requested order. */
  function Present(addrs: seq<string>, present: set<string>): (r: seq<string>)
    ensures Elems(r) == Elems(addrs) * present
    ensures |r| <= |addrs|
  {
    if addrs == [] then []
    else
      ElemsCons(addrs);
      var rest := Present(addrs[1..], present);
      if addrs[0] in present then
        ElemsCons([addrs[0]] + rest);
        assert ([addrs[0]] + rest)[1..] == rest;
        [addrs[0]] + rest
      else rest
  }

  /** `Present` is a filter: it keeps the order and the repetitions of
      the requested addresses, one by one. */
  lemma PresentOne(a: string, present: set<string>)
    ensures Present([a], present) == if a in present then [a] else []
  {
    assert [a][1..] == [];
  }

  lemma {:induction false} PresentAppend(a: seq<string>, b: seq<string>, present: set<string>)
    ensures Present(a + b, present) == Present(a, present) + Present(b, present)
  {
    if a == [] {
      assert a + b == b;
    } else {
      assert (a + b)[0] == a[0];
      assert (a + b)[1..] == a[1..] + b;
      PresentAppend(a[1..], b, present);
    }
  }

  /** The script of `deleteBlackholeRoutes`: a `del` line for each
      requested address found in the queried table, in requested order. */
  function DeleteScript(addrs: seq<string>, present: set<string>): (r: string)
    ensures r == [] <==> Elems(addrs) !! present
  {
    if addrs == [] then []
    else
      ElemsCons(addrs);
      (if addrs[0] in present then DeletePrefix + addrs[0] + "\n" else [])
      + DeleteScript(addrs[1..], present)
  }

  function DeleteLines(addrs: seq<string>): (r: seq<string>)
    ensures |r| == |addrs|
    ensures forall i | 0 <= i < |addrs| :: r[i] == DeletePrefix + addrs[i]
  {
    if addrs == [] then [] else [DeletePrefix + addrs[0]] + DeleteLines(addrs[1..])
  }

  lemma {:induction false} DeleteScriptIsJoin(addrs: seq<string>, present: set<string>)
    ensures DeleteScript(addrs, present) == JoinLines(DeleteLines(Present(addrs, present)))
  {
    if addrs != [] {
      DeleteScriptIsJoin(addrs[1..], present);
      var rest := Present(addrs[1..], present);
      if addrs[0] in present {
        assert Present(addrs, present) == [addrs[0]] + rest;
        assert DeleteLines([addrs[0]] + rest)[1..] == DeleteLines(rest);
      }
    }
  }

  /** The delete script holds exactly one `ip route del blackhole` line
      per requested address that is present, in requested order; no line
      names an address missing from the table. */
  lemma DeleteScriptLines(addrs: seq<string>, present: set<string>)
    requires AllAreAddresses(addrs)
    ensures Lines(DeleteScript(addrs, present)) == DeleteLines(Present(addrs, present))
    ensures forall i | 0 <= i < |Present(addrs, present)| :: Present(addrs, present)[i] in present
  {
    DeleteScriptIsJoin(addrs, present);
    var p := Present(addrs, present);
    PresentInTable(addrs, present);
    DeleteLinesAreLines(p);
    LinesJoin(DeleteLines(p));
  }

  lemma PresentInTable(addrs: seq<string>, present: set<string>)
    ensures forall i | 0 <= i < |Present(addrs, present)| ::
      Present(addrs, present)[i] in present && Present(addrs, present)[i] in Elems(addrs)
  {
    var p := Present(addrs, present);
    forall i | 0 <= i < |p| ensures p[i] in present && p[i] in Elems(addrs) {
      assert p[i] in Elems(p);
    }
  }

  lemma DeleteLinesAreLines(p: seq<string>)
    requires AllAreAddresses(p)
    ensures forall i | 0 <= i < |DeleteLines(p)| :: IsLine(DeleteLines(p)[i])
  {
    forall i | 0 <= i < |p| ensures IsLine(DeleteLines(p)[i]) {
      PrefixedLine(DeletePrefix, p[i]);
    }
  }

  /** What `deleteBlackholeRoutes` decides after querying the node: the
      query's error, or the script to run (None when nothing requested is
      present, in which case nothing is run). */
  function DeletePlan(addrs: seq<string>, query: Result<set<string>>): (r: Result<Option<string>>)
    ensures query.Err? ==> r == Err(query.error)
    ensures query.Ok? ==> r.Ok?
    ensures query.Ok? ==> (r.value.None? <==> Elems(addrs) !! query.value)
    ensures query.Ok? && r.value.Some? ==> r.value.value == DeleteScript(addrs, query.value)
  {
    match query
    case Err(e) => Err(e)
    case Ok(blackholes) =>
      var script := DeleteScript(addrs, blackholes);
      if |script| == 0 then Ok(None) else Ok(Some(script))
  }

  /** `deleteBlackholeRoutes`: queries the node, then runs the delete
      script unless it is empty. A failing query is returned before any
      deletion is attempted. */
  function DeleteBlackholeRoutes(
    context: string, node: string, addrs: seq<string>,
    exec: string -> Result<string>): (r: Result<()>)
    ensures FindBlackholeRoutes(context, node, exec(QueryScript)).Err? ==>
      r == Err(FindBlackholeRoutes(context, node, exec(QueryScript)).error)
    ensures (FindBlackholeRoutes(context, node, exec(QueryScript)).Ok?
      && Elems(addrs) !! FindBlackholeRoutes(context, node, exec(QueryScript)).value) ==> r == Ok(())
    ensures var q := FindBlackholeRoutes(context, node, exec(QueryScript));
      (q.Ok? && !(Elems(addrs) !! q.value)) ==>
        (r.Ok? <==> exec(DeleteScript(addrs, q.value)).Ok?)
        && (r.Err? ==> r.error == exec(DeleteScript(addrs, q.value)).error)
  {
    match DeletePlan(addrs, FindBlackholeRoutes(context, node, exec(QueryScript)))
    case Err(e) => Err(e)
    case Ok(None) => Ok(())
    case Ok(Some(script)) =>
      match exec(script)
      case Err(e) => Err(e)
      case Ok(_) => Ok(())
  }

  // ---------------------------------------------------------------------
  // findBlackholeRoutes

  /** The shape the parser demands of every line: at least two fields, the
      first being the literal "blackhole". Blank lines do not qualify. */
  predicate IsRouteLine(line: string) {
    var f := Fields(line);
    |f| >= 2 && f[0] == "blackhole"
  }

  function RouteAddress(line: string): string
    requires IsRouteLine(line)
  {
    Fields(line)[1]
  }

  function ParseLine(context: string, node: string, line: string): Result<string> {
    var fields := Fields(line);
    if |fields| < 2 || fields[0] != "blackhole" then Err(InvalidRoute(line, context, node))
    else Ok(fields[1])
  }

  /** The scanning loop: the first malformed line aborts the parse. */
  function ParseRoutes(context: string, node: string, lines: seq<string>): (r: Result<set<string>>)
    ensures r.Ok? <==> forall i | 0 <= i < |lines| :: IsRouteLine(lines[i])
    ensures r.Ok? ==> r.value == set i | 0 <= i < |lines| :: RouteAddress(lines[i])
    ensures r.Err? ==> exists i | 0 <= i < |lines| ::
      !IsRouteLine(lines[i]) && r.error == InvalidRoute(lines[i], context, node)
      && forall j | 0 <= j < i :: IsRouteLine(lines[j])
  {
    if lines == [] then Ok({})
    else match ParseLine(context, node, lines[0])
      case Err(e) => Err(e)
      case Ok(a) =>
        var rest := ParseRoutes(context, node, lines[1..]);
        assert forall i | 0 <= i < |lines| - 1 :: lines[1..][i] == lines[i + 1];
        match rest
        case Err(e) => Err(e)
        case Ok(s) =>
          assert {a} + s == set i | 0 <= i < |lines| :: RouteAddress(lines[i]) by {
            forall x | x in set i | 0 <= i < |lines| :: RouteAddress(lines[i])
              ensures x in {a} + s
            {
              var i :| 0 <= i < |lines| && x == RouteAddress(lines[i]);
              if i > 0 {
                assert x == RouteAddress(lines[1..][i - 1]);
              }
            }
            forall x | x in s ensures x in set i | 0 <= i < |lines| :: RouteAddress(lines[i]) {
              var i :| 0 <= i < |lines| - 1 && x == RouteAddress(lines[1..][i]);
              assert x == RouteAddress(lines[i + 1]);
            }
          }
          Ok({a} + s)
  }

  /** `findBlackholeRoutes`: the query's failure, or the parse of its
      output line by line. */
  function FindBlackholeRoutes(context: string, node: string, output: Result<string>): (r: Result<set<string>>)
    ensures output.Err? ==> r == Err(output.error)
    ensures output.Ok? ==> r == ParseRoutes(context, node, Lines(output.value))
  {
    match output
    case Err(e) => Err(e)
    case Ok(out) => ParseRoutes(context, node, Lines(out))
  }

  /** Output made of one line parses as that line alone. */
  lemma OneLineOutput(context: string, node: string, line: string)
    requires IsLine(line)
    ensures FindBlackholeRoutes(context, node, Ok(line + "\n")) == ParseRoutes(context, node, [line])
  {
    LinesJoin([line]);
    assert JoinLines([line]) == line + "\n";
  }

  /** The second field is the address, whatever fields follow it. */
  lemma SecondFieldIsAddress(a: string, rest: string)
    requires IsAddress(a)
    ensures IsRouteLine("blackhole " + a + " " + rest)
    ensures RouteAddress("blackhole " + a + " " + rest) == a
  {
    var line := "blackhole " + a + " " + rest;
    assert line == "blackhole" + [' '] + (a + [' '] + rest);
    assert IsWord("blackhole");
    FieldsWordSpace("blackhole", ' ', a + [' '] + rest);
    FieldsWordSpace(a, ' ', rest);
  }

  lemma RouteLineIsLine(w: string, a: string, rest: string)
    requires IsWord(w) && IsAddress(a) && IsLine(rest)
    ensures IsLine(w + " " + a + " " + rest)
  {
    var l := w + " " + a + " " + rest;
    var n := |w| + 1 + |a| + 1;
    assert forall k | 0 <= k < |l| :: l[k] == (if k < |w| then w[k] else if k == |w| then ' '
      else if k < |w| + 1 + |a| then a[k - |w| - 1] else if k == n - 1 then ' ' else rest[k - n]);
    assert forall k | 0 <= k < |l| :: l[k] != '\n' by {
      forall k | 0 <= k < |l| ensures l[k] != '\n' {
        if k < |w| {
          assert !IsSpace(w[k]);
        } else if |w| < k < |w| + 1 + |a| {
          assert !IsSpace(a[k - |w| - 1]);
        } else if k >= n {
          assert rest[k - n] in rest;
        }
      }
    }
    if rest != [] {
      assert l[|l| - 1] == rest[|rest| - 1];
    }
  }

  /** One route line in the IPv6 shape, the address followed by further
      fields ("dev lo metric 1024 pref medium"), yields that address. */
  lemma ParseSingleRoute(context: string, node: string, a: string, rest: string)
    requires IsAddress(a) && IsLine(rest)
    ensures FindBlackholeRoutes(context, node, Ok("blackhole " + a + " " + rest + "\n")) == Ok({a})
  {
    var line := "blackhole " + a + " " + rest;
    assert IsWord("blackhole");
    RouteLineIsLine("blackhole", a, rest);
    SecondFieldIsAddress(a, rest);
    OneLineOutput(context, node, line);
    assert (set i | 0 <= i < |[line]| :: RouteAddress([line][i])) == {a} by {
      assert [line][0] == line;
    }
  }

  /** A blank line is malformed. */
  lemma ParseRejectsBlankLine(context: string, node: string)
    ensures FindBlackholeRoutes(context, node, Ok("\n")) == Err(InvalidRoute("", context, node))
  {
    OneLineOutput(context, node, "");
  }

  /** A line whose first field is not "blackhole" (such as "default via
      10.0.0.1") is malformed, and aborts the parse. */
  lemma ParseRejectsOtherRoutes(context: string, node: string, w: string, a: string, rest: string)
    requires IsWord(w) && w != "blackhole" && IsAddress(a) && IsLine(rest)
    ensures FindBlackholeRoutes(context, node, Ok(w + " " + a + " " + rest + "\n"))
         == Err(InvalidRoute(w + " " + a + " " + rest, context, node))
  {
    var line := w + " " + a + " " + rest;
    assert line == w + [' '] + (a + " " + rest);
    FieldsWordSpace(w, ' ', a + " " + rest);
    RouteLineIsLine(w, a, rest);
    OneLineOutput(context, node, line);
  }

  /** The route listing a node prints for a table: one line per address,
      in the IPv4 shape "blackhole <address> ". */
  function RouteListing(table: seq<string>): string {
    if table == [] then [] else "blackhole " + table[0] + " \n" + RouteListing(table[1..])
  }

  function ListingLines(table: seq<string>): (r: seq<string>)
    ensures |r| == |table|
    ensures forall i | 0 <= i < |table| :: r[i] == "blackhole " + table[i] + " "
  {
    if table == [] then [] else ["blackhole " + table[0] + " "] + ListingLines(table[1..])
  }

  lemma {:induction false} RouteListingIsJoin(table: seq<string>)
    ensures RouteListing(table) == JoinLines(ListingLines(table))
  {
    if table != [] {
      RouteListingIsJoin(table[1..]);
      assert ListingLines(table)[1..] == ListingLines(table[1..]);
      assert "blackhole " + table[0] + " \n" == ("blackhole " + table[0] + " ") + "\n";
    }
  }

  lemma ListingLineParses(a: string)
    requires IsAddress(a)
    ensures IsLine("blackhole " + a + " ")
    ensures IsRouteLine("blackhole " + a + " ") && RouteAddress("blackhole " + a + " ") == a
  {
    var l := "blackhole " + a + " ";
    assert l == "blackhole " + a + " " + [];
    SecondFieldIsAddress(a, []);
    assert l[|l| - 1] == ' ';
    assert forall k | 0 <= k < |l| :: l[k] == (if k < 10 then "blackhole "[k] else if k < 10 + |a| then a[k - 10] else ' ');
  }

  /** Parsing what a node prints for its table gives the table back. */
  lemma QueryRoundTrip(context: string, node: string, table: seq<string>)
    requires AllAreAddresses(table)
    ensures FindBlackholeRoutes(context, node, Ok(RouteListing(table))) == Ok(Elems(table))
  {
    RouteListingIsJoin(table);
    var ls := ListingLines(table);
    forall i | 0 <= i < |ls| ensures IsLine(ls[i]) && IsRouteLine(ls[i]) && RouteAddress(ls[i]) == table[i] {
      ListingLineParses(table[i]);
    }
    LinesJoin(ls);
    var s := set i | 0 <= i < |ls| :: RouteAddress(ls[i]);
    assert s == Elems(table) by {
      forall x | x in Elems(table) ensures x in s {
        var i :| 0 <= i < |table| && table[i] == x;
        assert RouteAddress(ls[i]) == x;
      }
    }
  }

  // ---------------------------------------------------------------------
  // The node's blackhole table

  /** One line of a script run against a table of blackhole routes. The
      table model stops at the first failing line; `sh -c` would go on to
      the next line and report the last command's status. The scripts the
      plugin builds fail on no line of a table they were built for. */
  function ApplyLine(table: set<string>, line: string): Result<set<string>> {
    if HasPrefix(line, ReplacePrefix) then Ok(table + {line[|ReplacePrefix|..]})
    else if HasPrefix(line, DeletePrefix) then
      var a := line[|DeletePrefix|..];
      if a in table then Ok(table - {a}) else Err(RouteNotFound(a))
    else Err(UnknownCommand(line))
  }

  function ApplyLines(table: set<string>, lines: seq<string>): Result<set<string>>
    decreases |lines|
  {
    if lines == [] then Ok(table)
    else match ApplyLine(table, lines[0])
      case Err(e) => Err(e)
      case Ok(t) => ApplyLines(t, lines[1..])
  }

  /** The effect of a script on the node's table. */
  function ApplyScript(table: set<string>, script: string): Result<set<string>> {
    ApplyLines(table, Lines(script))
  }

  lemma ReplaceLineApplies(table: set<string>, a: string)
    ensures ApplyLine(table, ReplacePrefix + a) == Ok(table + {a})
  {
    var l := ReplacePrefix + a;
    assert l[..|ReplacePrefix|] == ReplacePrefix;
    assert l[|ReplacePrefix|..] == a;
  }

  lemma DeleteLineApplies(table: set<string>, a: string)
    ensures ApplyLine(table, DeletePrefix + a)
         == if a in table then Ok(table - {a}) else Err(RouteNotFound(a))
  {
    var l := DeletePrefix + a;
    assert l[9] == 'd' && ReplacePrefix[9] == 'r';
    assert !HasPrefix(l, ReplacePrefix);
    assert l[..|DeletePrefix|] == DeletePrefix;
    assert l[|DeletePrefix|..] == a;
  }

  lemma {:induction false} ReplaceLinesApply(table: set<string>, addrs: seq<string>)
    ensures ApplyLines(table, ReplaceLines(addrs)) == Ok(table + Elems(addrs))
    decreases |addrs|
  {
    if addrs != [] {
      var ls := ReplaceLines(addrs);
      ReplaceLineApplies(table, addrs[0]);
      assert ls[0] == ReplacePrefix + addrs[0];
      assert ls[1..] == ReplaceLines(addrs[1..]);
      assert ApplyLines(table, ls) == ApplyLines(table + {addrs[0]}, ls[1..]);
      ReplaceLinesApply(table + {addrs[0]}, addrs[1..]);
      ElemsCons(addrs);
      assert table + {addrs[0]} + Elems(addrs[1..]) == table + Elems(addrs);
    } else {
      assert ReplaceLines(addrs) == [];
      assert table + Elems(addrs) == table;
    }
  }

  /** Running the add script leaves the table holding every address it held
      before plus every requested one. */
  lemma AddScriptEffect(table: set<string>, addrs: seq<string>)
    requires AllAreAddresses(addrs)
    ensures ApplyScript(table, AddScript(addrs)) == Ok(table + Elems(addrs))
  {
    AddScriptLines(addrs);
    ReplaceLinesApply(table, addrs);
  }

  /** Blocking twice leaves the same table as blocking once. */
  lemma AddScriptIdempotent(table: set<string>, addrs: seq<string>)
    requires AllAreAddresses(addrs)
    ensures ApplyScript(table, AddScript(addrs)).Ok?
    ensures ApplyScript(ApplyScript(table, AddScript(addrs)).value, AddScript(addrs))
         == ApplyScript(table, AddScript(addrs))
  {
    AddScriptEffect(table, addrs);
    AddScriptEffect(table + Elems(addrs), addrs);
  }

  lemma {:induction false} DeleteLinesApply(table: set<string>, addrs: seq<string>)
    requires Distinct(addrs)
    requires Elems(addrs) <= table
    ensures ApplyLines(table, DeleteLines(addrs)) == Ok(table - Elems(addrs))
    decreases |addrs|
  {
    if addrs != [] {
      var ls := DeleteLines(addrs);
      DeleteLineApplies(table, addrs[0]);
      assert addrs[0] in Elems(addrs);
      assert ls[0] == DeletePrefix + addrs[0];
      assert ls[1..] == DeleteLines(addrs[1..]);
      assert ApplyLines(table, ls) == ApplyLines(table - {addrs[0]}, ls[1..]);
      ElemsCons(addrs);
      DistinctTail(addrs);
      DeleteLinesApply(table - {addrs[0]}, addrs[1..]);
      assert table - {addrs[0]} - Elems(addrs[1..]) == table - Elems(addrs);
    } else {
      assert DeleteLines(addrs) == [];
      assert table - Elems(addrs) == table;
    }
  }

  lemma {:induction false} PresentDistinct(addrs: seq<string>, present: set<string>)
    requires Distinct(addrs)
    ensures Distinct(Present(addrs, present))
  {
    if addrs != [] {
      PresentDistinct(addrs[1..], present);
      var rest := Present(addrs[1..], present);
      if addrs[0] in present {
        var r := [addrs[0]] + rest;
        DistinctTail(addrs);
        ElemsCons(addrs);
        assert addrs[0] !in Elems(rest);
        forall i, j | 0 <= i < j < |r| ensures r[i] != r[j] {
          if i == 0 {
            assert r[j] == rest[j - 1];
            assert rest[j - 1] in Elems(rest);
          } else {
            assert r[i] == rest[i - 1] && r[j] == rest[j - 1];
          }
        }
      }
    }
  }

  /** Running the delete script built from the node's own table removes
      exactly the requested addresses and never deletes an absent route.
      The requested addresses are distinct, as `AllAddresses` guarantees. */
  lemma DeleteScriptEffect(table: set<string>, addrs: seq<string>)
    requires AllAreAddresses(addrs) && Distinct(addrs)
    ensures ApplyScript(table, DeleteScript(addrs, table)) == Ok(table - Elems(addrs))
  {
    DeleteScriptLines(addrs, table);
    var p := Present(addrs, table);
    PresentDistinct(addrs, table);
    DeleteLinesApply(table, p);
    assert table - Elems(p) == table - Elems(addrs);
  }

  /** Unblocking a node end to end: the query of a node holding `table`
      yields a plan that either skips the remote call, when nothing
      requested is present, or runs a script leaving exactly the table
      minus the requested addresses. */
  lemma UnblockNode(context: string, node: string, table: seq<string>, addrs: seq<string>)
    requires AllAreAddresses(table) && AllAreAddresses(addrs) && Distinct(addrs)
    ensures DeletePlan(addrs, FindBlackholeRoutes(context, node, Ok(RouteListing(table)))).Ok?
    ensures var plan := DeletePlan(addrs, FindBlackholeRoutes(context, node, Ok(RouteListing(table)))).value;
      (plan.None? <==> Elems(addrs) !! Elems(table))
      && (plan.Some? ==> ApplyScript(Elems(table), plan.value) == Ok(Elems(table) - Elems(addrs)))
  {
    QueryRoundTrip(context, node, table);
    DeleteScriptEffect(Elems(table), addrs);
  }

  /** Blocking and then unblocking the same addresses restores a table
      that held none of them. */
  lemma BlockUnblockRoundTrip(table: set<string>, addrs: seq<string>)
    requires AllAreAddresses(addrs) && Distinct(addrs)
    requires table !! Elems(addrs)
    ensures ApplyScript(table, AddScript(addrs)).Ok?
    ensures var blocked := ApplyScript(table, AddScript(addrs)).value;
      ApplyScript(blocked, DeleteScript(addrs, blocked)) == Ok(table)
  {
    AddScriptEffect(table, addrs);
    DeleteScriptEffect(table + Elems(addrs), addrs);
    assert (table + Elems(addrs)) - Elems(addrs) == table;
  }
}

=== FILE: show.dfy ===
/** `sortedKeys` (cmd/show.go): the keys of a node-status map, sorted.

    Go visits a map's keys in an unspecified order; the loop below picks
    the next key arbitrarily, so its proof covers every visiting order. */
module Show {
  import opened Types
  import opened Ordering
  import Orchestration

  /** The keys of `m` in increasing order, each once. */
  method SortedKeys(m: map<string, Orchestration.Status>) returns (keys: seq<string>)
    ensures StrictlySorted(keys)
    ensures forall k :: k in keys <==> k in m
    ensures |keys| == |m|
  {
    var visited: seq<string> := [];
    var rest := m.Keys;
    while rest != {}
      invariant Distinct(visited)
      invariant Elems(visited) + rest == m.Keys
      invariant Elems(visited) !! rest
      decreases |rest|
    {
      var k :| k in rest;
      AppendFresh(visited, k);
      visited := visited + [k];
      rest := rest - {k};
    }
    keys := SortUnique(visited);
    SortedCard(keys);
    DistinctIffCard(visited);
    assert Elems(visited) == m.Keys;
  }

  /** Appending an element not yet present keeps a sequence duplicate-free. */
  lemma AppendFresh(s: seq<string>, x: string)
    requires Distinct(s) && x !in Elems(s)
    ensures Distinct(s + [x])
    ensures Elems(s + [x]) == Elems(s) + {x}
  {
    ElemsAppend(s, [x]);
    var t := s + [x];
    forall i, j | 0 <= i < j < |t| ensures t[i] != t[j] {
      if j == |s| {
        assert t[i] == s[i];
        assert s[i] in Elems(s);
      } else {
        assert t[i] == s[i] && t[j] == s[j];
      }
    }
  }

  /** Whatever order the keys were visited in, the listing is the same. */
  lemma SortedKeysDeterministic(m: map<string, Orchestration.Status>, a: seq<string>, b: seq<string>)
    requires StrictlySorted(a) && (forall k :: k in a <==> k in m)
    requires StrictlySorted(b) && (forall k :: k in b <==> k in m)
    ensures a == b
  {
    assert Elems(a) == Elems(b);
    SortedUnique(a, b);
  }
}

=== FILE: text.dfy ===
/** The pieces of Go's `strings` and `bufio` packages the core relies on:
    white-space splitting (`strings.Fields`), line scanning
    (`bufio.Scanner` with its default `ScanLines` split), trimming with the
    cut set " " (`strings.Trim`) and splitting at the first space
    (`strings.SplitN(s, " ", 2)`). */
module Text {
  import opened Types

  /** Go's `unicode.IsSpace`: the ASCII white space plus the Unicode
      White_Space characters. */
  predicate IsSpace(c: char) {
    c == ' ' || c == '\t' || c == '\n' || c == '\r' || c == '\U{000B}' || c == '\U{000C}'
    || c == '\U{0085}' || c == '\U{00A0}' || c == '\U{1680}'
    || ('\U{2000}' <= c <= '\U{200A}')
    || c == '\U{2028}' || c == '\U{2029}' || c == '\U{202F}' || c == '\U{205F}' || c == '\U{3000}'
  }

  /** A non-empty run of characters none of which is white space. */
  predicate IsWord(w: string) {
    w != [] && forall k | 0 <= k < |w| :: !IsSpace(w[k])
  }

  /** Length of the longest white-space-free prefix. */
  function WordLen(s: string): (n: nat)
    ensures n <= |s|
    ensures forall k | 0 <= k < n :: !IsSpace(s[k])
    ensures n < |s| ==> IsSpace(s[n])
  {
    if s == [] || IsSpace(s[0]) then 0 else 1 + WordLen(s[1..])
  }

  /** `strings.Fields`: the maximal runs of non-space characters, in order. */
  function Fields(s: string): (r: seq<string>)
    ensures forall i | 0 <= i < |r| :: IsWord(r[i])
    decreases |s|
  {
    if s == [] then []
    else if IsSpace(s[0]) then Fields(s[1..])
    else
      var n := WordLen(s);
      [s[..n]] + Fields(s[n..])
  }

  lemma {:induction false} WordLenOfWord(w: string, rest: string)
    requires IsWord(w)
    requires rest == [] || IsSpace(rest[0])
    ensures WordLen(w + rest) == |w|
    decreases |w|
  {
    var s := w + rest;
    if |w| > 1 {
      assert s[1..] == w[1..] + rest;
      WordLenOfWord(w[1..], rest);
    } else {
      assert s[1..] == rest;
    }
  }

  /** A word followed by a space contributes exactly itself as a field. */
  lemma FieldsWordSpace(w: string, c: char, rest: string)
    requires IsWord(w) && IsSpace(c)
    ensures Fields(w + [c] + rest) == [w] + Fields(rest)
  {
    var s := w + [c] + rest;
    WordLenOfWord(w, [c] + rest);
    assert s == w + ([c] + rest);
    assert s[..|w|] == w;
    assert s[|w|..] == [c] + rest;
    assert ([c] + rest)[1..] == rest;
  }

  /** Index of the first occurrence of `c`, if any. */
  function IndexOf(s: string, c: char): (r: Option<nat>)
    ensures r.None? <==> c !in s
    ensures r.Some? ==> r.value < |s| && s[r.value] == c
    ensures r.Some? ==> forall k | 0 <= k < r.value :: s[k] != c
  {
    if s == [] then None
    else if s[0] == c then Some(0)
    else match IndexOf(s[1..], c)
      case None => None
      case Some(i) => Some(i + 1)
  }

  /** `ScanLines` drops one trailing carriage return from each line. */
  function DropCR(s: string): string {
    if s != [] && s[|s| - 1] == '\r' then s[..|s| - 1] else s
  }

  /** Length of the text before the first newline (all of `s` if none). */
  function LineLen(s: string): (n: nat)
    ensures n <= |s|
    ensures forall k | 0 <= k < n :: s[k] != '\n'
    ensures n < |s| ==> s[n] == '\n'
  {
    if s == [] || s[0] == '\n' then 0 else 1 + LineLen(s[1..])
  }

  /** The lines `bufio.Scanner` returns with its default split function:
      the text is cut at each '\n'; a final line without a newline is still
      returned; text ending in '\n' yields no empty last line. */
  function Lines(s: string): (r: seq<string>)
    ensures forall i | 0 <= i < |r| :: '\n' !in r[i]
    decreases |s|
  {
    if s == [] then []
    else
      var n := LineLen(s);
      var line := DropCR(s[..n]);
      assert '\n' !in line by {
        assert forall k | 0 <= k < |line| :: line[k] == s[k];
      }
      [line] + (if n == |s| then [] else Lines(s[n + 1..]))
  }

  /** A line a scanner can return unchanged. */
  predicate IsLine(l: string) {
    '\n' !in l && (l == [] || l[|l| - 1] != '\r')
  }

  /** Each line followed by a newline, concatenated. */
  function JoinLines(ls: seq<string>): string {
    if ls == [] then [] else ls[0] + "\n" + JoinLines(ls[1..])
  }

  lemma {:induction false} LineLenAppend(a: string, b: string)
    requires '\n' in a
    ensures LineLen(a + b) == LineLen(a)
  {
    if a[0] != '\n' {
      assert (a + b)[1..] == a[1..] + b;
      LineLenAppend(a[1..], b);
    }
  }

  lemma LinesCons(l: string, rest: string)
    requires IsLine(l)
    ensures Lines(l + "\n" + rest) == [l] + Lines(rest)
  {
    var s := l + "\n" + rest;
    assert LineLen(s) == |l| by {
      assert s == (l + "\n") + rest;
      LineLenAppend(l + "\n", rest);
      assert forall k | 0 <= k < |l| :: (l + "\n")[k] == l[k];
    }
    assert s[..|l|] == l;
    assert s[|l| + 1..] == rest;
  }

  /** Scanning joined lines gives the lines back. */
  lemma {:induction false} LinesJoin(ls: seq<string>)
    requires forall i | 0 <= i < |ls| :: IsLine(ls[i])
    ensures Lines(JoinLines(ls)) == ls
  {
    if ls != [] {
      LinesCons(ls[0], JoinLines(ls[1..]));
      LinesJoin(ls[1..]);
    }
  }

  /** `s` is `r` surrounded by spaces only, `r` starting at index `i`. */
  predicate PaddedBySpaces(s: string, r: string, i: int) {
    0 <= i <= |s| - |r| && s[i..i + |r|] == r
    && (forall k | 0 <= k < i :: s[k] == ' ')
    && (forall k | i + |r| <= k < |s| :: s[k] == ' ')
  }

  /** `strings.Trim(s, " ")`: removes every leading and trailing ' '. */
  function TrimSpaces(s: string): (r: string)
    ensures r == [] || (r[0] != ' ' && r[|r| - 1] != ' ')
    ensures exists i :: PaddedBySpaces(s, r, i)
  {
    var i := LeadingSpaces(s);
    var j := |s| - TrailingSpaces(s[i..]);
    assert s[i..j] == s[i..][..j - i];
    assert PaddedBySpaces(s, s[i..j], i);
    s[i..j]
  }

  function LeadingSpaces(s: string): (n: nat)
    ensures n <= |s|
    ensures forall k | 0 <= k < n :: s[k] == ' '
    ensures n < |s| ==> s[n] != ' '
  {
    if s == [] || s[0] != ' ' then 0 else 1 + LeadingSpaces(s[1..])
  }

  function TrailingSpaces(s: string): (n: nat)
    ensures n <= |s|
    ensures forall k | |s| - n <= k < |s| :: s[k] == ' '
    ensures n < |s| ==> s[|s| - n - 1] != ' '
  {
    if s == [] || s[|s| - 1] != ' ' then 0 else 1 + TrailingSpaces(s[..|s| - 1])
  }

  /** Whether `s` starts with `p`. */
  predicate HasPrefix(s: string, p: string) {
    |p| <= |s| && s[..|p|] == p
  }
}

=== FILE: types.dfy ===
/** Shared vocabulary of the model: the error values the plugin reports, a
    Result/Option pair to carry them, and small facts about the elements of
    a sequence. */
module Types {

  /** Every error the core can return, one constructor per distinct cause.
      The Go code builds formatted messages; the model keeps the cause and
      the values that went into the message. */
  datatype Error =
    | DuplicateContexts(contexts: seq<string>)
    | BlockedInTargets(blocked: string, targets: seq<string>)
    | SameContext(context: string)
    | NoExternalIP(node: string)
    | NoNodeAddresses
    | NoTargetNodes
    | NoClusterForContext(context: string)
    | BadServerURL(context: string, server: string)
    | InvalidRoute(line: string, context: string, node: string)
    | RouteNotFound(address: string)
    | UnknownCommand(line: string)

  datatype Option<+T> = None | Some(value: T)

  datatype Result<+T> = Ok(value: T) | Err(error: Error)

  /** The set of elements of a sequence. */
  function Elems<T>(s: seq<T>): set<T> {
    set x | x in s
  }

  /** No element occurs twice. */
  predicate Distinct<T(==)>(s: seq<T>) {
    forall i, j | 0 <= i < j < |s| :: s[i] != s[j]
  }

  lemma ElemsAppend<T>(a: seq<T>, b: seq<T>)
    ensures Elems(a + b) == Elems(a) + Elems(b)
  {
    assert forall x :: x in a + b <==> x in a || x in b;
  }

  lemma ElemsCons<T>(s: seq<T>)
    requires s != []
    ensures Elems(s) == {s[0]} + Elems(s[1..])
  {
    assert s == [s[0]] + s[1..];
    ElemsAppend([s[0]], s[1..]);
  }

  /** A sequence is duplicate-free exactly when its element set is as large
      as the sequence is long (the test `validateContexts` performs). */
  lemma {:induction false} DistinctIffCard<T>(s: seq<T>)
    ensures Distinct(s) <==> |Elems(s)| == |s|
  {
    if s == [] {
    } else {
      var t := s[1..];
      ElemsCons(s);
      DistinctIffCard(t);
      ElemsCardBound(t);
      if s[0] in Elems(t) {
        assert Elems(s) == Elems(t);
        var k :| 0 <= k < |t| && t[k] == s[0];
        assert s[0] == s[k + 1];
        assert !Distinct(s);
      } else {
        assert |Elems(s)| == |Elems(t)| + 1;
        assert Distinct(s) <==> Distinct(t) by {
          if Distinct(t) {
            forall i, j | 0 <= i < j < |s| ensures s[i] != s[j] {
              if i == 0 {
                assert s[j] == t[j - 1];
                assert s[j] in Elems(t);
              } else {
                assert s[i] == t[i - 1] && s[j] == t[j - 1];
              }
            }
          }
          if Distinct(s) {
            forall i, j | 0 <= i < j < |t| ensures t[i] != t[j] {
              assert t[i] == s[i + 1] && t[j] == s[j + 1];
            }
          }
        }
      }
    }
  }

  lemma {:induction false} ElemsCardBound<T>(s: seq<T>)
    ensures |Elems(s)| <= |s|
  {
    if s != [] {
      ElemsCons(s);
      ElemsCardBound(s[1..]);
    }
  }

  lemma DistinctTail<T>(s: seq<T>)
    requires Distinct(s) && s != []
    ensures Distinct(s[1..])
    ensures s[0] !in Elems(s[1..])
  {
    forall k | 0 <= k < |s| - 1 ensures s[1..][k] != s[0] {
      assert s[1..][k] == s[k + 1];
    }
  }
}
